=== FILE: README.md ===
# express-sequelize-controller, modelled in Dafny

The library turns a Sequelize model into an Express router. A `Controller` keeps
the model's table name, a mount prefix and a caller-supplied array of
before-actions (middleware gates). Its `actionMap()` is a nested object from
endpoint to HTTP method to handler. `getRouter()` registers every gate with
`router.use` and then every (endpoint, method) pair of that map, in property
order. The base class answers every route with 501. `APIController` answers
JSON, accepts only requests that accept JSON, and adds the `delete` and
`update` alias endpoints. `HTMLController` renders views, accepts only
requests that accept HTML, and adds GET to `create` and `update/:id(\d+)` so
they serve forms.

The model has eight modules:

- `Prelude`: optional values, ASCII lower-casing, substring search.
- `AssocList`: JavaScript objects as ordered association lists. Property
  assignment replaces an existing key in place and appends a new one.
- `Http`: what a handler reads from a request, the persistence calls it makes
  and the responses it attempts. A handler run is an `Outcome`: its calls, its
  replies (each with the status code in force at that moment), and whether it
  threw afterwards. The persistence layer's answers are a parameter
  (`Answers`). `BodyEntry`, `TruthyId`, `PathKey` and `IdText` are request
  vocabulary: `req.body[tableName]`, `req.params.id` where an `if` tests it,
  the key `findByPk(req.params.id)` receives, and the id as a template literal
  prints it.
- `Controller`: `Controller.js`. The default action map, `getBase()`, the
  not-implemented handlers, and router compilation as a registration trace.
- `ApiController`: `APIController.js`.
- `HtmlController`: `HTMLController.js`.
- `Dispatch`: virtual dispatch of `actionMap()` and of the handlers on the
  runtime class. It also covers Express's walk over a compiled router (gates in
  order, then the first matching route) and `getRouter()` reading a gate array
  that controllers share by reference.
- `Findings`: defects of the handlers as written, each next to a corrected
  handler, and the proof that the corrected handlers answer every routed
  request exactly once, given that the persistence calls resolve, that the
  body holds an entry under the table name, and that `create` returns a row.

Where the documentation comments and the code disagree, the model follows the
code:

- `APIController.actionMap()` appends `delete` and `update` after
  `:id(\d+)`. Its doc comment lists them before `delete/:id(\d+)`.
- `HTMLController.actionMap()` assigns `get` to method objects that already
  hold `post` (and `put`). So GET is enumerated, and registered, after the
  existing methods. The doc comment lists `get` first under `create`, and
  shows no `get` under `update/:id(\d+)` at all.
- Both subclasses push their gate onto the caller's array after the base
  constructor has stored that array. So the gate runs after the caller's own
  gates. The array is shared, not copied: a gate pushed later, or a second
  controller built on the same array, changes every router compiled
  afterwards.

Three behaviours follow from the code and are modelled, but are not listed
as defects of their own:

- `update` with no body entry throws without answering
  (APIController.js:74-78): before any persistence call when the path has an
  id, and after `upsert(undefined)` otherwise. The request is malformed, and
  the code picks no answer for it that a correction could follow.
- The `delete` alias path has no `:id`, so the alias always looks up
  `findByPk(undefined)` and misses. It then answers 500 and throws, which is
  the `delete` defect listed under Findings; which row the alias was meant to
  delete is not evident from the code.
- The HTML `create` POST answers nothing when `create` resolves falsy; see
  "Left out".

## Model

| member | source | states |
|---|---|---|
| Prelude.Lower | Controller.js:20 | lower-casing keeps the length and maps every character through the ASCII case mapping |
| Prelude.LowerOnlyTouchesUpper | Controller.js:20 | the lower-cased name has no upper-case letter and differs from the table name only at upper-case letters |
| Prelude.LowerIdempotent | Controller.js:20 | lower-casing an already lower-cased name changes nothing |
| AssocList.Lookup | Controller.js:43 | reading a property (`endpoints[endpoint]`, and `map["create"]` in `HTMLController.actionMap()`) finds nothing exactly when the key is absent, and otherwise a value stored under that key |
| AssocList.Assign | APIController.js:145-152 | assigning a new key appends it at the end; assigning an existing key keeps the key order; every other entry stays where it was |
| AssocList.AssignLookup | APIController.js:145-152 | after an assignment the key reads as the new value and every other key reads as before |
| AssocList.AssignKeepsDistinct | APIController.js:145-152 | assignment never creates a duplicate key |
| AssocList.AssignAt | HTMLController.js:154-155 | on an object without duplicate keys, assigning an existing key replaces that entry in its position |
| AssocList.AssignFreshPair | APIController.js:145-152 | assigning two new keys appends both, in assignment order |
| AssocList.KeysAppend | APIController.js:145-152 | the keys of a map with entries appended are its own keys followed by the new ones |
| AssocList.ReplaceValueKeepsKeys | HTMLController.js:154-155 | replacing the value under an existing key keeps every key in place and keeps the keys distinct |
| Controller.DefaultActionMap | Controller.js:97-123 | the default map has no duplicate endpoint, no duplicate method under an endpoint, and binds every handler to the runtime class |
| Controller.DefaultEndpoints | Controller.js:97-123 | the default map has exactly the six endpoints, in source order |
| Controller.DefaultMethodsLow | Controller.js:99-108 | `""` answers GET then POST, `index` answers GET, `create` answers POST |
| Controller.DefaultMethodsHigh | Controller.js:109-121 | `delete/:id(\d+)` answers POST then DELETE, `update/:id(\d+)` PUT then POST, `:id(\d+)` GET, PUT then DELETE |
| Controller.DefaultActionMapShape | Controller.js:97-123 | the six endpoints in source order, with the methods of each in source order |
| Controller.WellFormedAppend | APIController.js:143-155 | appending well-formed entries under new endpoints keeps a map well formed |
| Controller.SetMethod | HTMLController.js:154-155 | `map[endpoint][verb] = h` keeps the endpoints, gives that endpoint the assigned method map, and leaves every other endpoint unchanged |
| Controller.SetMethodKeepsWellFormed | HTMLController.js:154-155 | setting one method keeps a well-formed map well formed |
| Controller.LookupFindsDistinct | Controller.js:43 | without duplicate keys, reading the key at a position yields that position's value |
| Controller.SetMethodAt | HTMLController.js:154-155 | giving an endpoint a method it lacks appends that method after the existing ones, in place |
| Controller.GetBase | Controller.js:51-53 | the mount path is the prefix, a slash, then the lower-cased table name |
| Controller.GetBaseIdentifiesName | Controller.js:51-53 | under one prefix, two controllers share a mount path exactly when their table names agree after lower-casing |
| Controller.Construct | Controller.js:18-25 | the constructor keeps the table name, the prefix and the caller's gate array itself (not a copy) |
| Controller.NotImplemented | Controller.js:56-60 | every base handler answers 501 "Not Implemented." once, with no persistence call |
| Controller.NotFoundMessage | APIController.js:66 | the 404 text names the path id as the template literal prints it |
| Controller.MissingMessage | APIController.js:81 | the 500 text names the lower-cased table name and the path id |
| Controller.EndpointRoutes | Controller.js:44-46 | one endpoint registers one route per method, in method order, at `"/" + endpoint` |
| Controller.MapRoutes | Controller.js:42-47 | a map registers one route per (endpoint, method) pair and nothing but routes |
| Controller.Uses | Controller.js:39 | one `router.use` layer per gate, in array order |
| Controller.CompileRouter | Controller.js:37-49 | the loop over endpoints and methods registers the gates and then exactly the routes of the reference definition |
| Controller.RouteMembership | Controller.js:42-47 | a route is registered exactly when its endpoint holds that method and handler |
| Controller.RouteSource | Controller.js:42-47 | every registered route comes from some endpoint and method position of the map |
| Controller.RouteOf | Controller.js:42-47 | every endpoint and method position of the map is registered |
| Controller.MapRoutesAppend | Controller.js:42-47 | appending endpoints appends their routes after the existing ones |
| Controller.GrowsInPlaceKeepsRoutes | Controller.js:42-47 | adding methods to existing endpoints keeps every route registered before |
| Controller.WellFormedRoutesDistinct | Controller.js:42-47 | a map without duplicate keys never registers one path and method twice |
| ApiController.New | APIController.js:35-38 | the constructor keeps the caller's array and pushes the JSON gate onto its end |
| ApiController.NewWithDefaults | APIController.js:35-38 | with the defaults, the prefix is `/api` and the gate list is just the JSON gate |
| ApiController.DefaultBeforeAction | APIController.js:45-49 | the JSON gate passes exactly the requests that accept `json` or `application/json`, and answers the rest 406 |
| ApiController.Get | APIController.js:51-56 | `findAll` is filtered by the body entry, or by `{}` without one, and its rows are sent once |
| ApiController.GetById | APIController.js:58-67 | exactly one reply: the record when a truthy id finds one, otherwise a 404 naming the id; no lookup without a truthy id |
| ApiController.Create | APIController.js:69-71 | the body entry is created and the result sent once |
| ApiController.Update | APIController.js:73-85 | the path id overrides the body id before the upsert; the row is re-fetched by that id; a missing body entry throws with no reply, before any call when the path id is truthy and after `upsert(undefined)` otherwise; a failed re-fetch sends 500 and then `null` |
| ApiController.Delete | APIController.js:87-99 | a hit is destroyed and the full collection sent; a miss sends 500 and then throws |
| ApiController.ExtendApiAppends | APIController.js:143-155 | on a map without the aliases, `delete` and `update` are appended after every existing endpoint |
| ApiController.ExtendApiKeepsBase | APIController.js:143-155 | every endpoint of the base map reads as before |
| ApiController.ExtendApiKeepsWellFormed | APIController.js:143-155 | the extended map has no duplicate endpoint or method |
| ApiController.AliasesWellFormed | APIController.js:145-152 | the override adds `delete` then `update`, neither with a duplicate method |
| ApiController.DefaultHasNoAliases | APIController.js:143-155 | the default map holds neither alias, so the override appends both rather than replacing an entry |
| ApiController.ExtendDefaultAppends | APIController.js:143-155 | on the default map, the aliases come after `:id(\d+)` |
| ApiController.ExtendDefaultKeeps | APIController.js:143-155 | on the default map, the override keeps every entry and stays well formed |
| ApiController.ApiActionMapShape | APIController.js:143-155 | the JSON map is the six default endpoints, then `delete` and `update`, well formed |
| ApiController.AliasRoutes | APIController.js:145-152 | the aliases register POST and DELETE on `/delete` to `delete`, and PUT and POST on `/update` to `update` |
| ApiController.ExtendApiRoutes | APIController.js:143-155 | the extended map registers every base route in order, then the four alias routes |
| HtmlController.New | HTMLController.js:37-43 | the constructor keeps the caller's array and pushes the HTML gate onto its end |
| HtmlController.NewWithDefaults | HTMLController.js:37-43 | with the defaults, the prefix is empty and the gate list is just the HTML gate |
| HtmlController.DefaultBeforeAction | HTMLController.js:50-54 | the HTML gate passes exactly the requests that accept `html`, and answers the rest 406 |
| HtmlController.ViewPath | HTMLController.js:61 | a view is named by the lower-cased table name, a slash, then the view name |
| HtmlController.Get | HTMLController.js:57-62 | `findAll` is filtered as in the JSON handler and the index view rendered once |
| HtmlController.GetById | HTMLController.js:64-73 | a hit is rendered once; a miss gets a 404 naming the id and then a second render of the view |
| HtmlController.Create | HTMLController.js:75-83 | GET builds and renders the form; POST creates and redirects only on a truthy result; other methods do nothing |
| HtmlController.Update | HTMLController.js:85-100 | GET renders the form; POST upserts the body entry as posted and renders, after a 500 on a failed re-fetch; PUT and other methods do nothing |
| HtmlController.Delete | HTMLController.js:102-114 | a hit is destroyed and the index view rendered; a miss sends 500 and then throws |
| HtmlController.ExtendHtmlAppendsGet | HTMLController.js:152-157 | GET is appended, after the existing methods, to `create` and to `update/:id(\d+)`; nothing else changes |
| HtmlController.ExtendDefaultHtml | HTMLController.js:152-157 | on the default map, `create` gains GET after POST and `update/:id(\d+)` gains GET after PUT and POST |
| HtmlController.WithFormGets | HTMLController.js:154-155 | adding the two form GETs only adds methods to existing endpoints |
| HtmlController.WithFormGetsAddsOnlyForms | HTMLController.js:154-155 | every route of the grown map is an old route or one of the two form GETs |
| HtmlController.WithFormGetsHasForms | HTMLController.js:154-155 | both form GETs are registered |
| HtmlController.ExtendHtmlRoutes | HTMLController.js:152-157 | the HTML map registers exactly the base routes plus the two form GETs |
| HtmlController.WithFormGetsKeeps | HTMLController.js:154-155 | a property of every old route and of both form GETs holds for every route of the grown map |
| HtmlController.ExtendHtmlKeeps | HTMLController.js:152-157 | a property of every base route and of both form GETs holds for every route of the HTML map |
| HtmlController.ExtendHtmlKeepsWellFormed | HTMLController.js:152-157 | the HTML map has no duplicate endpoint or method |
| Dispatch.Decide | APIController.js:45-49 | the JSON gate passes exactly the requests accepting `json` or `application/json`, the HTML gate exactly those accepting `html`; a negotiation gate answers only with a 406; a caller's gate decides as the caller's middleware does |
| Dispatch.FirstRoute | Controller.js:45 | the handler found is registered for that path and method; no handler is found only when none is registered |
| Dispatch.FirstRouteIsFirst | Controller.js:45 | when several routes match, the handler found is that of the first one registered |
| Dispatch.RunGates | Controller.js:39 | the chain passes exactly when every gate passes; otherwise it stops at a gate that answers, and every earlier gate passed |
| Dispatch.ServeCompiled | Controller.js:37-49 | a compiled router answers with the first gate that stops the request, or else with the handler of the first route for its path and method, or else nothing |
| Dispatch.ServeOneGate | Controller.js:37-49 | with one gate, a stopping gate's reply is the answer; a passing gate hands the request to the first matching route, or to nothing |
| Dispatch.GateBlocks | Controller.js:39 | a gate that answers stops the chain at or before itself |
| Dispatch.GetRouter | Controller.js:37-49 | the router is compiled from the array the controller holds at call time and from its runtime class's map |
| Dispatch.DefaultRoutesBound | Controller.js:97-123 | every default route runs a handler of the runtime class |
| Dispatch.ApiRoutes | APIController.js:143-155 | the JSON router registers the default routes unchanged and in order, then the four alias routes |
| Dispatch.HtmlRoutes | HTMLController.js:152-157 | the HTML router registers exactly the default routes and the two form GETs |
| Dispatch.ApiRoutesSatisfy | APIController.js:143-155 | a property of every default and alias route holds for every JSON route |
| Dispatch.HtmlRoutesSatisfy | HTMLController.js:152-157 | a property of every default route and both form GETs holds for every HTML route |
| Dispatch.RoutesSatisfy | Controller.js:97-123 | a property of the default routes and of a subclass's additions holds for every route that subclass registers |
| Dispatch.RoutesBound | Controller.js:97-123 | every route of every controller runs a handler of its own runtime class |
| Dispatch.ApiRoutesBound | APIController.js:143-155 | every JSON route runs a JSON handler |
| Dispatch.HtmlRoutesBound | HTMLController.js:152-157 | every HTML route runs an HTML handler |
| Dispatch.KeepsDefaultRoutes | Controller.js:97-123 | both subclasses register every default route with the same handler |
| Dispatch.ActionMapWellFormed | Controller.js:97-123 | every runtime class's map has no duplicate endpoint or method |
| Dispatch.RoutesDistinct | Controller.js:42-47 | no compiled router registers a path and method twice |
| Dispatch.GateRejects | Controller.js:39 | a gate that answers keeps every route from running; its answer is sent when every earlier gate passes |
| Dispatch.BaseRouterNotImplemented | Controller.js:56-60 | every route of a base controller answers 501 without a persistence call |
| Dispatch.ServeDefaultApi | APIController.js:35-49 | a default JSON controller is mounted under `/api`, answers 406 to a request that accepts no JSON, and otherwise runs the first route for the request |
| Dispatch.ServeDefaultHtml | HTMLController.js:37-54 | a default HTML controller is mounted under the empty prefix, answers 406 to a request that does not accept HTML, and otherwise runs the first route for the request |
| Dispatch.LateGate | APIController.js:35-38 | the controller keeps its gate array by reference: a gate pushed onto that array after construction runs in every router compiled afterwards, after the JSON gate and before the same routes |
| Dispatch.SharedGateArray | HTMLController.js:37-43 | two controllers built on one array both run both negotiation gates, in construction order |
| Dispatch.SharedGatesRejectEachOther | HTMLController.js:50-54 | with a shared array, each router turns away the other kind of client with the other gate's 406 |
| Findings.ApiUpdateMissAnswersTwice | APIController.js:79-84 | as written, a failed re-fetch is answered with a 500 text and then with `null` |
| Findings.ApiUpdateFixed | APIController.js:73-85 | with a return after the 500, every update with a body entry is answered once; otherwise it acts as written |
| Findings.ApiDeleteMissThrows | APIController.js:87-95 | as written, a miss is answered 500 and then throws on `destroy` |
| Findings.DeleteAliasLooksUpUndefined | APIController.js:145-148 | the `delete` alias route has no id, so `delete` calls `findByPk(undefined)`; on a miss it answers one 500 naming the id `undefined` and then throws |
| Findings.ApiDeleteFixed | APIController.js:87-99 | with a return after the 500, every delete is answered once and never throws |
| Findings.HtmlGetByIdMissAnswersTwice | HTMLController.js:69-72 | as written, a miss is answered twice |
| Findings.HtmlGetByIdFixed | HTMLController.js:64-73 | with an else around the render, every lookup is answered once, with the same first reply |
| Findings.HtmlUpdateMissAnswersTwice | HTMLController.js:93-98 | as written, a failed re-fetch after a POST is answered twice |
| Findings.PutRoutesUpdate | Controller.js:113-121 | the default map routes PUT to `update` at both `/update/:id(\d+)` and `/:id(\d+)` |
| Findings.HtmlUpdateIgnoresPut | HTMLController.js:85-100 | PUT is routed to the HTML `update` twice over, which answers it with nothing and saves nothing |
| Findings.HtmlUpdateFixed | HTMLController.js:85-100 | treating PUT like POST and returning after the 500, every GET, PUT or POST with a body entry is answered once |
| Findings.HtmlDeleteMissThrows | HTMLController.js:105-110 | as written, a miss is answered 500 and then throws on `destroy` |
| Findings.HtmlDeleteFixed | HTMLController.js:102-114 | with a return after the 500, every delete is answered once and never throws |
| Findings.RedirectMissesPrefix | HTMLController.js:81 | under a non-empty prefix, the redirect after a create misses the controller's own index route |
| Findings.IndexUrl | Controller.js:51-53 | the index URL is the mount path followed by `/index`, and is the written redirect when the prefix is empty |
| Findings.HtmlCreateFixed | HTMLController.js:75-83 | the create redirect goes to the controller's own index route; it never throws, makes the written calls, and otherwise acts as written |
| Findings.HandleFixedAgrees | APIController.js:73-99 | the corrected handlers agree with the written ones on every request that meets none of the defect conditions: a lookup miss in `update` or `delete`, a falsy id or a miss in the HTML `getById`, a PUT to the HTML `update`, a successful HTML create POST under a non-empty prefix |
| Findings.DefaultUpdateMethods | Controller.js:113-120 | the default map binds `update` only under PUT and POST |
| Findings.DefaultCreateMethods | Controller.js:99-108 | the default map binds `create` only under POST |
| Findings.DefaultUpdateVerbs | Controller.js:97-123 | every default route to `update` or `create` uses a method that handler answers |
| Findings.ApiUpdateVerbs | APIController.js:143-155 | every JSON route to `update` or `create` uses a method that handler answers |
| Findings.UpdateRouteVerbs | Controller.js:97-123 | in every controller, `update` is routed only under GET, PUT and POST, and `create` only under GET and POST |
| Findings.FixedHandlerAnswersOnce | HTMLController.js:75-114 | the corrected handlers answer exactly once every request of a method they are routed under, given a body entry, a successful create, and persistence calls that resolve |
| Findings.FixedRoutesAnswerOnce | Controller.js:37-49 | with the corrections, every request a router hands to a handler is answered exactly once, given a body entry, a successful create, and persistence calls that resolve |

## Left out

- Express path matching: a request's URL is given as the route pattern it
  matches (`pattern`). Regular-expression parameters such as `:id(\d+)` are
  not parsed, and `req.params.id` is a given string.
- Methods outside GET, POST, PUT and DELETE. No action map uses others.
  Express's HEAD-to-GET fallback is not modelled.
- Sequelize: the results of `findByPk`, `findAll`, `create` and `build` are
  a parameter (`Answers`). Each handler calls each of them at most once.
  `upsert`'s result is never read, so it is not modelled.
- Rejected persistence calls: every `findByPk`, `findAll`, `create`,
  `upsert`, `destroy` and `build` is assumed to resolve. A rejection makes the
  `await` throw, and the request then gets no reply at all. The answered-once
  properties of `Findings` hold only for calls that resolve.
- A falsy result of `create` (`Answers.created` is `None`): Sequelize's
  `create` resolves to the new row or rejects, so the HTML `create` never
  meets it in practice. The model keeps the `if(success)` test, and there the
  POST answers nothing.
- async/await: a handler's run is its calls, then its replies, then whether it
  threw. Promise scheduling and unhandled-rejection reporting are not
  modelled. A second `res.send` after headers are sent is recorded as a
  second reply, not as the error Express raises.
- Caller-supplied middleware is opaque: its decision is a parameter
  (`custom`), and it is assumed to either call `next()` or answer.
- `toLowerCase` is modelled on ASCII only. Unicode case mapping is out of
  scope.
- `req.body` itself: a body-parsing middleware is assumed to have run, so
  `req.body` is always an object. Without one it is `undefined`, and
  `req.body[tableName]` throws in `get`, `create` and `update`.
- The routed method and `req.method` are separate parameters of `Serve` and
  of the lemmas about it. Their contracts hold for every pairing, including
  the one Express produces, where `req.method` is the route's method.
  `Findings.FixedRoutesAnswerOnce` ties the two together. Each URL is taken
  to match at most one endpoint pattern: `:id(\d+)` matches only digit
  segments, and no literal endpoint is all digits.
- Body entries are modelled as objects. Non-object values of
  `req.body[tableName]` (strings, numbers, falsy values) are not.
- `mountController` in `index.js` is `app.use(getBase(), getRouter())` on an
  Express app. The app is not part of this model; `GetBase` and `GetRouter`
  are.
- Property enumeration order for integer-like keys: JavaScript enumerates
  those first. No key of any action map is integer-like, so plain insertion
  order is used.
- HtmlController.ExtendHtml: requires the `create` and `update/:id(\d+)`
  endpoints. The source throws a TypeError without them, but `super.actionMap()`
  always provides both.
- Dispatch.Handle runs the handlers as written. The corrected handlers are
  gathered in `Findings.HandleFixed`, which the routing properties are not
  restated for.

## Findings

| source | as written | input that shows it | evidently intended | confidence | as-written member | corrected member |
|---|---|---|---|---|---|---|
| APIController.js:79-84 | after the 500 for a failed re-fetch the handler goes on to `res.send(model)` | an update whose body entry is present and whose re-fetch finds nothing | return after the 500, answering once | high, not executed | Findings.ApiUpdateMissAnswersTwice | Findings.ApiUpdateFixed |
| APIController.js:90-95 | after the 500 for a missing record the handler calls `model.destroy()` on `null` | a delete whose lookup finds nothing | return after the 500 | high, not executed | Findings.ApiDeleteMissThrows | Findings.ApiDeleteFixed |
| HTMLController.js:69-72 | after the 404 the view is rendered as well | a getById whose lookup finds nothing | render only when the record exists | high, not executed | Findings.HtmlGetByIdMissAnswersTwice | Findings.HtmlGetByIdFixed |
| HTMLController.js:93-98 | after the 500 for a failed re-fetch the view is rendered as well | a POST update whose body entry is present and whose re-fetch finds nothing | return after the 500 | high, not executed | Findings.HtmlUpdateMissAnswersTwice | Findings.HtmlUpdateFixed |
| HTMLController.js:86-90 | `update` handles only GET, "UPDATE" and POST, but the default map routes PUT to it | a PUT to `/update/7` or `/7` on an HTML controller | treat PUT like POST | medium, not executed | Findings.HtmlUpdateIgnoresPut | Findings.HtmlUpdateFixed |
| HTMLController.js:105-110 | after the 500 for a missing record the handler calls `model.destroy()` on `null` | a delete whose lookup finds nothing | return after the 500 | high, not executed | Findings.HtmlDeleteMissThrows | Findings.HtmlDeleteFixed |
| HTMLController.js:81 | the redirect after a create ignores the mount prefix | a controller mounted under the prefix `/admin` | redirect to the controller's own `index` route | medium, not executed | Findings.RedirectMissesPrefix | Findings.HtmlCreateFixed |

=== FILE: api_controller.dfy ===
/** The JSON controller: its constructor, its content-negotiation gate, its
    five handlers and its extension of the action map. */
module ApiController {
  import opened Prelude
  import opened AssocList
  import opened Http
  import opened Controller

  const DEFAULT_PREFIX := "/api"
  const NOT_ACCEPTABLE := "Not Acceptable"
  const DELETE_ALIAS := "delete"
  const UPDATE_ALIAS := "update"

  /** `new APIController(model, beforeActions, prefix)`: the base constructor
      keeps the caller's array, then the JSON gate is pushed onto it. */
  method New(tableName: string, beforeActions: GateArray, prefix: string) returns (c: Instance)
    modifies beforeActions
    ensures c.flavour == Api
    ensures c.beforeActions == beforeActions
    ensures c.resource == Resource(tableName, prefix)
    ensures beforeActions.items == old(beforeActions.items) + [JsonNegotiation]
  {
    c := Construct(Api, tableName, beforeActions, prefix);
    beforeActions.Push(JsonNegotiation);
  }

  /** `new APIController(model)`: a fresh gate array and the `/api` prefix. */
  method NewWithDefaults(tableName: string) returns (c: Instance)
    ensures c.flavour == Api
    ensures c.resource == Resource(tableName, DEFAULT_PREFIX)
    ensures fresh(c.beforeActions) && c.beforeActions.items == [JsonNegotiation]
  {
    var gates := new GateArray([]);
    c := New(tableName, gates, DEFAULT_PREFIX);
  }

  /** `defaultBeforeAction`: lets a request through exactly when it accepts
      JSON, and otherwise answers 406. */
  function DefaultBeforeAction(req: Request): (d: Decision)
    ensures d.Next? <==> Accepts(req, "json") || Accepts(req, "application/json")
    ensures d.Halt? ==> d.reply == Send(406, Text(NOT_ACCEPTABLE))
  {
    if Accepts(req, "json") || Accepts(req, "application/json") then Next
    else Halt(Send(406, Text(NOT_ACCEPTABLE)))
  }

  /** `get`: one `findAll` filtered by the body entry, whose rows are sent. */
  function Get(r: Resource, req: Request, db: Answers): (o: Outcome)
    ensures !o.aborted
    ensures r.tableName in req.body ==> o.calls == [FindAll(Some(req.body[r.tableName]))]
    ensures r.tableName !in req.body ==> o.calls == [FindAll(Some(map[]))]
    ensures o.replies == [Send(200, Rows(db.all))]
  {
    Done([FindAll(Some(ListFilter(r, req)))], [Send(200, Rows(db.all))])
  }

  /** `getById`: exactly one reply, the record when the path id finds one,
      otherwise a 404 naming the id. */
  function GetById(r: Resource, req: Request, db: Answers): (o: Outcome)
    ensures !o.aborted
    ensures |o.replies| == 1
    ensures TruthyId(req).Some? ==> o.calls == [FindByPk(Some(Str(req.pathId.value)))]
    ensures TruthyId(req).None? ==> o.calls == []
    ensures TruthyId(req).Some? && db.byPk.Some? ==> o.replies == [Send(200, Row(db.byPk))]
    ensures TruthyId(req).None? || db.byPk.None? ==>
              && o.replies[0].Send?
              && o.replies[0].status == 404
              && o.replies[0].payload.Text?
              && Mentions(o.replies[0].payload.text, IdText(req.pathId))
  {
    var calls := if TruthyId(req).Some? then [FindByPk(PathKey(req))] else [];
    var model := if TruthyId(req).Some? then db.byPk else None;
    if model.Some? then Done(calls, [Send(200, Row(model))])
    else Done(calls, [Send(404, Text(NotFoundMessage(req.pathId)))])
  }

  /** `create`: the body entry goes to `create` and its result is sent back. */
  function Create(r: Resource, req: Request, db: Answers): (o: Outcome)
    ensures !o.aborted
    ensures o.calls == [CreateRow(BodyEntry(req, r.tableName))]
    ensures o.replies == [Send(200, Row(db.created))]
  {
    Done([CreateRow(BodyEntry(req, r.tableName))], [Send(200, Row(db.created))])
  }

  /** The body entry after `update` has written a truthy path id into it. */
  function WithPathId(attrs: Attrs, pathId: Option<string>): Attrs {
    match pathId
    case Some(id) => attrs["id" := Str(id)]
    case None => attrs
  }

  /** `update`: the path id overrides the body id, the entry is upserted and
      re-fetched by its id; a failed re-fetch is answered twice (500, then
      `send(null)`). Without a body entry the handler throws. */
  function Update(r: Resource, req: Request, db: Answers): (o: Outcome)
    ensures o.aborted <==> r.tableName !in req.body
    ensures o.aborted ==> o.replies == []
    ensures r.tableName !in req.body ==> o.calls == (if TruthyId(req).Some? then [] else [Upsert(None)])
    ensures r.tableName in req.body ==>
              var sent := WithPathId(req.body[r.tableName], TruthyId(req));
              o.calls == [Upsert(Some(sent)), FindByPk(IdOf(sent))]
    ensures r.tableName in req.body && TruthyId(req).Some? ==>
              && o.calls[0].attrs.value["id"] == Str(req.pathId.value)
              && o.calls[1] == FindByPk(Some(Str(req.pathId.value)))
    ensures r.tableName in req.body && db.byPk.Some? ==> o.replies == [Send(200, Row(db.byPk))]
    ensures r.tableName in req.body && db.byPk.None? ==>
              o.replies == [Send(500, Text(MissingMessage(r, req.pathId, "update"))), Send(500, Row(None))]
  {
    match BodyEntry(req, r.tableName)
    case None =>
      if TruthyId(req).Some? then Crash([], []) else Crash([Upsert(None)], [])
    case Some(attrs) =>
      var sent := WithPathId(attrs, TruthyId(req));
      var calls := [Upsert(Some(sent)), FindByPk(IdOf(sent))];
      if db.byPk.Some? then Done(calls, [Send(200, Row(db.byPk))])
      else Done(calls, [Send(500, Text(MissingMessage(r, req.pathId, "update"))), Send(500, Row(None))])
  }

  /** `delete`: looks the path id up; a hit is destroyed and the unfiltered
      collection sent, a miss is answered 500 and then throws on `destroy`. */
  function Delete(r: Resource, req: Request, db: Answers): (o: Outcome)
    ensures |o.calls| >= 1 && o.calls[0] == FindByPk(PathKey(req))
    ensures o.aborted <==> db.byPk.None?
    ensures db.byPk.None? ==>
              && o.calls == [FindByPk(PathKey(req))]
              && o.replies == [Send(500, Text(MissingMessage(r, req.pathId, "delete")))]
    ensures db.byPk.Some? ==>
              && o.calls == [FindByPk(PathKey(req)), Destroy(db.byPk.value), FindAll(None)]
              && o.replies == [Send(200, Rows(db.all))]
  {
    match db.byPk
    case None =>
      Crash([FindByPk(PathKey(req))], [Send(500, Text(MissingMessage(r, req.pathId, "delete")))])
    case Some(model) =>
      Done([FindByPk(PathKey(req)), Destroy(model), FindAll(None)], [Send(200, Rows(db.all))])
  }

  const DELETE_ALIAS_METHODS: MethodMap := [(POST, Handler(Api, Action.Delete)), (DELETE, Handler(Api, Action.Delete))]
  const UPDATE_ALIAS_METHODS: MethodMap := [(PUT, Handler(Api, Action.Update)), (POST, Handler(Api, Action.Update))]

  /** The override `APIController.actionMap()` applies to the map it gets
      from `super.actionMap()`: assign `delete`, then `update`. */
  function ExtendApi(base: ActionMap): ActionMap {
    Assign(Assign(base, DELETE_ALIAS, DELETE_ALIAS_METHODS), UPDATE_ALIAS, UPDATE_ALIAS_METHODS)
  }

  /** On a map without the alias keys, the override appends the two aliases
      after every existing endpoint. */
  lemma ExtendApiAppends(base: ActionMap)
    requires DELETE_ALIAS !in Keys(base) && UPDATE_ALIAS !in Keys(base)
    ensures ExtendApi(base) == base + [(DELETE_ALIAS, DELETE_ALIAS_METHODS), (UPDATE_ALIAS, UPDATE_ALIAS_METHODS)]
    ensures Keys(ExtendApi(base)) == Keys(base) + [DELETE_ALIAS, UPDATE_ALIAS]
  {
    AssignFreshPair(base, DELETE_ALIAS, DELETE_ALIAS_METHODS, UPDATE_ALIAS, UPDATE_ALIAS_METHODS);
  }

  /** The override keeps every entry of the map it extends. */
  lemma ExtendApiKeepsBase(base: ActionMap)
    requires DELETE_ALIAS !in Keys(base) && UPDATE_ALIAS !in Keys(base)
    ensures Extends(ExtendApi(base), base)
  {
    var m1 := Assign(base, DELETE_ALIAS, DELETE_ALIAS_METHODS);
    AssignLookup(base, DELETE_ALIAS, DELETE_ALIAS_METHODS);
    AssignLookup(m1, UPDATE_ALIAS, UPDATE_ALIAS_METHODS);
  }

  /** The override keeps a well-formed map well formed. */
  lemma ExtendApiKeepsWellFormed(base: ActionMap)
    requires DELETE_ALIAS !in Keys(base) && UPDATE_ALIAS !in Keys(base)
    requires WellFormed(base)
    ensures WellFormed(ExtendApi(base))
  {
    ExtendApiAppends(base);
    AliasesWellFormed();
    WellFormedAppend(base, [(DELETE_ALIAS, DELETE_ALIAS_METHODS), (UPDATE_ALIAS, UPDATE_ALIAS_METHODS)]);
  }

  /** The two alias entries form a well-formed map of their own. */
  lemma AliasesWellFormed()
    ensures Keys([(DELETE_ALIAS, DELETE_ALIAS_METHODS), (UPDATE_ALIAS, UPDATE_ALIAS_METHODS)]) == [DELETE_ALIAS, UPDATE_ALIAS]
    ensures WellFormed([(DELETE_ALIAS, DELETE_ALIAS_METHODS), (UPDATE_ALIAS, UPDATE_ALIAS_METHODS)])
  {
    var aliases := [(DELETE_ALIAS, DELETE_ALIAS_METHODS), (UPDATE_ALIAS, UPDATE_ALIAS_METHODS)];
    assert DistinctKeys(DELETE_ALIAS_METHODS);
    assert DistinctKeys(UPDATE_ALIAS_METHODS);
    forall e | e in aliases
      ensures DistinctKeys(e.1)
    {
      assert e == aliases[0] || e == aliases[1];
    }
  }

  /** The default map of any flavour has neither alias endpoint. */
  lemma DefaultHasNoAliases(f: Flavour)
    ensures DELETE_ALIAS !in Keys(DefaultActionMap(f)) && UPDATE_ALIAS !in Keys(DefaultActionMap(f))
  {
    DefaultEndpoints(f);
    assert DELETE_ALIAS !in DEFAULT_ENDPOINTS && UPDATE_ALIAS !in DEFAULT_ENDPOINTS by {
      assert DELETE_ALIAS[0] != CREATE[0] && UPDATE_ALIAS[0] != CREATE[0];
    }
  }

  /** The override applied to the default map of any flavour appends the
      aliases after the six base endpoints. */
  lemma ExtendDefaultAppends(f: Flavour)
    ensures ExtendApi(DefaultActionMap(f)) == DefaultActionMap(f) + [(DELETE_ALIAS, DELETE_ALIAS_METHODS), (UPDATE_ALIAS, UPDATE_ALIAS_METHODS)]
    ensures Keys(ExtendApi(DefaultActionMap(f))) == DEFAULT_ENDPOINTS + [DELETE_ALIAS, UPDATE_ALIAS]
  {
    DefaultHasNoAliases(f);
    ExtendApiAppends(DefaultActionMap(f));
    DefaultEndpoints(f);
  }

  /** The override applied to the default map of any flavour keeps its
      entries and its well-formedness. */
  lemma ExtendDefaultKeeps(f: Flavour)
    ensures Extends(ExtendApi(DefaultActionMap(f)), DefaultActionMap(f))
    ensures WellFormed(ExtendApi(DefaultActionMap(f)))
  {
    DefaultHasNoAliases(f);
    ExtendApiKeepsBase(DefaultActionMap(f));
    ExtendApiKeepsWellFormed(DefaultActionMap(f));
  }

  /** The JSON map: the six base endpoints unchanged and in place, then
      `delete` and `update`, after `:id(\\d+)`, whatever the documentation
      comment above the method shows; every base (endpoint, method) pair keeps
      its handler and no endpoint or method appears twice. */
  lemma ApiActionMapShape()
    ensures ExtendApi(DefaultActionMap(Api)) == DefaultActionMap(Api) + [(DELETE_ALIAS, DELETE_ALIAS_METHODS), (UPDATE_ALIAS, UPDATE_ALIAS_METHODS)]
    ensures Keys(ExtendApi(DefaultActionMap(Api))) == DEFAULT_ENDPOINTS + [DELETE_ALIAS, UPDATE_ALIAS]
    ensures Extends(ExtendApi(DefaultActionMap(Api)), DefaultActionMap(Api))
    ensures WellFormed(ExtendApi(DefaultActionMap(Api)))
  {
    ExtendDefaultAppends(Api);
    ExtendDefaultKeeps(Api);
  }

  /** The routes the two aliases register, in registration order. */
  const ALIAS_ROUTES: seq<Registration> :=
    [ Route("/" + DELETE_ALIAS, POST, Handler(Api, Action.Delete)),
      Route("/" + DELETE_ALIAS, DELETE, Handler(Api, Action.Delete)),
      Route("/" + UPDATE_ALIAS, PUT, Handler(Api, Action.Update)),
      Route("/" + UPDATE_ALIAS, POST, Handler(Api, Action.Update)) ]

  /** The alias routes run JSON handlers. */
  lemma AliasRoutesBound()
    ensures forall x :: x in ALIAS_ROUTES ==> BoundTo(Api, x)
  {
  }

  /** The two alias entries compile to the four alias routes. */
  lemma AliasRoutes()
    ensures MapRoutes([(DELETE_ALIAS, DELETE_ALIAS_METHODS), (UPDATE_ALIAS, UPDATE_ALIAS_METHODS)]) == ALIAS_ROUTES
  {
    var aliases := [(DELETE_ALIAS, DELETE_ALIAS_METHODS), (UPDATE_ALIAS, UPDATE_ALIAS_METHODS)];
    var first := aliases[..1];
    assert first[..0] == [];
    assert MapRoutes(first) == EndpointRoutes(DELETE_ALIAS, DELETE_ALIAS_METHODS);
    assert EndpointRoutes(DELETE_ALIAS, DELETE_ALIAS_METHODS) == ALIAS_ROUTES[..2];
    assert EndpointRoutes(UPDATE_ALIAS, UPDATE_ALIAS_METHODS) == ALIAS_ROUTES[2..];
    assert MapRoutes(aliases) == MapRoutes(first) + EndpointRoutes(UPDATE_ALIAS, UPDATE_ALIAS_METHODS);
  }

  /** On a map without the alias keys, the override registers every route of
      the map it extends, in the same order, and then the four alias routes. */
  lemma ExtendApiRoutes(base: ActionMap)
    requires DELETE_ALIAS !in Keys(base) && UPDATE_ALIAS !in Keys(base)
    ensures MapRoutes(ExtendApi(base)) == MapRoutes(base) + ALIAS_ROUTES
  {
    ExtendApiAppends(base);
    MapRoutesAppend(base, [(DELETE_ALIAS, DELETE_ALIAS_METHODS), (UPDATE_ALIAS, UPDATE_ALIAS_METHODS)]);
    AliasRoutes();
  }
}

=== FILE: assoc.dfy ===
/** Ordered association lists: the shape of a JavaScript object literal, whose
    string keys keep insertion order when enumerated with `for ... in`. */
module AssocList {
  import opened Prelude

  type Assoc<K, V> = seq<(K, V)>

  /** The keys in enumeration order. */
  function Keys<K, V>(m: Assoc<K, V>): (ks: seq<K>)
    ensures |ks| == |m|
    ensures forall i :: 0 <= i < |m| ==> ks[i] == m[i].0
  {
    if |m| == 0 then [] else [m[0].0] + Keys(m[1..])
  }

  ghost predicate DistinctKeys<K, V>(m: Assoc<K, V>) {
    forall i, j :: 0 <= i < j < |m| ==> m[i].0 != m[j].0
  }

  /** Property read `m[k]`: the first entry under `k`, or `undefined`. */
  function Lookup<K(==), V>(m: Assoc<K, V>, k: K): (r: Option<V>)
    ensures r.None? <==> k !in Keys(m)
    ensures r.Some? ==> (k, r.value) in m
  {
    if |m| == 0 then None
    else if m[0].0 == k then Some(m[0].1)
    else Lookup(m[1..], k)
  }

  /** Property assignment `m[k] = v`: an existing key keeps its position and
      takes the new value, a new key is appended at the end. */
  function Assign<K(==, !new), V>(m: Assoc<K, V>, k: K, v: V): (r: Assoc<K, V>)
    ensures k !in Keys(m) ==> r == m + [(k, v)]
    ensures k in Keys(m) ==> Keys(r) == Keys(m)
    ensures forall i :: 0 <= i < |m| && m[i].0 != k ==> r[i] == m[i]
  {
    if |m| == 0 then [(k, v)]
    else if m[0].0 == k then [(k, v)] + m[1..]
    else [m[0]] + Assign(m[1..], k, v)
  }

  /** After `m[k] = v`, reading `k` gives `v` and every other key reads as
      before. */
  lemma {:induction false} AssignLookup<K(!new), V>(m: Assoc<K, V>, k: K, v: V)
    ensures Lookup(Assign(m, k, v), k) == Some(v)
    ensures forall j :: j != k ==> Lookup(Assign(m, k, v), j) == Lookup(m, j)
  {
    if |m| > 0 && m[0].0 != k {
      AssignLookup(m[1..], k, v);
      assert Assign(m, k, v)[1..] == Assign(m[1..], k, v);
    } else if |m| > 0 {
      assert Assign(m, k, v)[1..] == m[1..];
    }
  }

  /** Assignment never introduces a duplicate key. */
  lemma {:induction false} AssignKeepsDistinct<K(!new), V>(m: Assoc<K, V>, k: K, v: V)
    requires DistinctKeys(m)
    ensures DistinctKeys(Assign(m, k, v))
  {
    var r := Assign(m, k, v);
    if k !in Keys(m) {
      forall i, j | 0 <= i < j < |r|
        ensures r[i].0 != r[j].0
      {
        if j == |m| {
          assert r[i].0 == Keys(m)[i];
        }
      }
    } else {
      forall i, j | 0 <= i < j < |r|
        ensures r[i].0 != r[j].0
      {
        assert r[i].0 == Keys(r)[i] == Keys(m)[i];
        assert r[j].0 == Keys(r)[j] == Keys(m)[j];
      }
    }
  }

  lemma DistinctKeysTail<K, V>(m: Assoc<K, V>)
    requires DistinctKeys(m) && |m| > 0
    ensures DistinctKeys(m[1..])
  {
    forall a, b | 0 <= a < b < |m| - 1
      ensures m[1..][a].0 != m[1..][b].0
    {
      assert m[1..][a] == m[a + 1] && m[1..][b] == m[b + 1];
    }
  }

  /** On a map without duplicate keys, assigning an existing key replaces
      its entry in place. */
  lemma {:induction false} AssignAt<K(!new), V>(m: Assoc<K, V>, k: K, v: V, i: nat)
    requires DistinctKeys(m)
    requires i < |m| && m[i].0 == k
    ensures Assign(m, k, v) == m[i := (k, v)]
  {
    if i > 0 {
      assert m[0].0 != k;
      assert Assign(m, k, v) == [m[0]] + Assign(m[1..], k, v);
      DistinctKeysTail(m);
      AssignAt(m[1..], k, v, i - 1);
      assert [m[0]] + m[1..][i - 1 := (k, v)] == m[i := (k, v)];
    } else {
      assert Assign(m, k, v) == [(k, v)] + m[1..];
      assert [(k, v)] + m[1..] == m[0 := (k, v)];
    }
  }

  /** Replacing the value at a position keeps the keys, and so keeps them
      distinct. */
  lemma ReplaceValueKeepsKeys<K, V>(m: Assoc<K, V>, i: nat, v: V)
    requires i < |m|
    ensures Keys(m[i := (m[i].0, v)]) == Keys(m)
    ensures DistinctKeys(m) ==> DistinctKeys(m[i := (m[i].0, v)])
  {
    var r := m[i := (m[i].0, v)];
    assert forall j :: 0 <= j < |m| ==> r[j].0 == m[j].0;
  }

  /** The keys of a concatenation are the concatenated keys. */
  lemma KeysAppend<K, V>(m: Assoc<K, V>, extra: Assoc<K, V>)
    ensures Keys(m + extra) == Keys(m) + Keys(extra)
  {
    var l, r := Keys(m + extra), Keys(m) + Keys(extra);
    assert |l| == |r|;
    forall i | 0 <= i < |l|
      ensures l[i] == r[i]
    {
      if i < |m| {
        assert (m + extra)[i] == m[i];
      } else {
        assert (m + extra)[i] == extra[i - |m|];
      }
    }
  }

  /** Assigning two fresh keys appends them, in assignment order. */
  lemma AssignFreshPair<K(!new), V>(m: Assoc<K, V>, k1: K, v1: V, k2: K, v2: V)
    requires k1 !in Keys(m) && k2 !in Keys(m) && k1 != k2
    ensures Assign(Assign(m, k1, v1), k2, v2) == m + [(k1, v1), (k2, v2)]
    ensures Keys(Assign(Assign(m, k1, v1), k2, v2)) == Keys(m) + [k1, k2]
  {
    var m1 := Assign(m, k1, v1);
    KeysAppend(m, [(k1, v1)]);
    assert Keys([(k1, v1)]) == [k1];
    assert k2 !in Keys(m1);
    assert m1 + [(k2, v2)] == m + [(k1, v1), (k2, v2)];
    KeysAppend(m, [(k1, v1), (k2, v2)]);
    assert Keys([(k1, v1), (k2, v2)]) == [k1, k2];
  }

  /** Every key of `small` is a key of `big`, holding the same value. */
  ghost predicate Extends<K(!new), V>(big: Assoc<K, V>, small: Assoc<K, V>) {
    forall k :: k in Keys(small) ==> Lookup(big, k) == Lookup(small, k)
  }
}

=== FILE: controller.dfy ===
/** The base controller: resource identity, mount path, the default action
    map, the five "not implemented" handlers, and router compilation as a
    registration trace. */
module Controller {
  import opened Prelude
  import opened AssocList
  import opened Http

  /** The runtime class of a controller object: which overrides `this.get`,
      `this.create`, ... resolve to. */
  datatype Flavour = Base | Api | Html

  /** The five handler properties of a controller. */
  datatype Action = Get | GetById | Create | Update | Delete

  /** A bound handler such as `this.update` of an `APIController`. */
  datatype Handler = Handler(flavour: Flavour, action: Action)

  /** HTTP method to handler, in property order. */
  type MethodMap = Assoc<HttpMethod, Handler>

  /** Endpoint (path pattern without the leading slash) to method map. */
  type ActionMap = Assoc<string, MethodMap>

  const ROOT := ""
  const INDEX := "index"
  const CREATE := "create"
  const DELETE_BY_ID := "delete/:id(\\d+)"
  const UPDATE_BY_ID := "update/:id(\\d+)"
  const BY_ID := ":id(\\d+)"

  /** The action map of `Controller.actionMap()`, with each `this.<action>`
      bound to the controller's runtime class. */
  function DefaultActionMap(f: Flavour): (m: ActionMap)
    ensures DistinctKeys(m)
    ensures forall e :: e in m ==> DistinctKeys(e.1)
    ensures forall e, p :: e in m && p in e.1 ==> p.1.flavour == f
  {
    [ (ROOT, [(GET, Handler(f, Get)), (POST, Handler(f, Create))]),
      (INDEX, [(GET, Handler(f, Get))]),
      (CREATE, [(POST, Handler(f, Create))]),
      (DELETE_BY_ID, [(POST, Handler(f, Delete)), (DELETE, Handler(f, Delete))]),
      (UPDATE_BY_ID, [(PUT, Handler(f, Update)), (POST, Handler(f, Update))]),
      (BY_ID, [(GET, Handler(f, GetById)), (PUT, Handler(f, Update)), (DELETE, Handler(f, Delete))]) ]
  }

  /** The six default endpoints, in source order. */
  const DEFAULT_ENDPOINTS: seq<string> := [ROOT, INDEX, CREATE, DELETE_BY_ID, UPDATE_BY_ID, BY_ID]

  /** The default map has exactly the six default endpoints, in source order. */
  lemma DefaultEndpoints(f: Flavour)
    ensures Keys(DefaultActionMap(f)) == DEFAULT_ENDPOINTS
  {
  }

  /** The first three endpoints of the default map answer exactly these
      methods, in source order. */
  lemma DefaultMethodsLow(f: Flavour)
    ensures |DefaultActionMap(f)| == 6
    ensures Keys(DefaultActionMap(f)[0].1) == [GET, POST]
    ensures Keys(DefaultActionMap(f)[1].1) == [GET]
    ensures Keys(DefaultActionMap(f)[2].1) == [POST]
  {
  }

  /** The last three endpoints of the default map answer exactly these
      methods, in source order. */
  lemma DefaultMethodsHigh(f: Flavour)
    ensures |DefaultActionMap(f)| == 6
    ensures Keys(DefaultActionMap(f)[3].1) == [POST, DELETE]
    ensures Keys(DefaultActionMap(f)[4].1) == [PUT, POST]
    ensures Keys(DefaultActionMap(f)[5].1) == [GET, PUT, DELETE]
  {
  }

  /** The default map has exactly six endpoints, in source order, and the
      endpoint at each position answers exactly these methods, in order. */
  lemma DefaultActionMapShape(f: Flavour)
    ensures Keys(DefaultActionMap(f)) == DEFAULT_ENDPOINTS
    ensures Keys(DefaultActionMap(f)[0].1) == [GET, POST]
    ensures Keys(DefaultActionMap(f)[1].1) == [GET]
    ensures Keys(DefaultActionMap(f)[2].1) == [POST]
    ensures Keys(DefaultActionMap(f)[3].1) == [POST, DELETE]
    ensures Keys(DefaultActionMap(f)[4].1) == [PUT, POST]
    ensures Keys(DefaultActionMap(f)[5].1) == [GET, PUT, DELETE]
  {
    DefaultEndpoints(f);
    DefaultMethodsLow(f);
    DefaultMethodsHigh(f);
  }

  /** Method maps are well formed: no endpoint and no method under one
      endpoint appears twice, as in any JavaScript object. */
  ghost predicate WellFormed(m: ActionMap) {
    DistinctKeys(m) && forall e :: e in m ==> DistinctKeys(e.1)
  }

  /** Appending entries under fresh endpoints keeps a map well formed. */
  lemma WellFormedAppend(m: ActionMap, extra: ActionMap)
    requires WellFormed(m) && WellFormed(extra)
    requires forall k :: k in Keys(extra) ==> k !in Keys(m)
    ensures WellFormed(m + extra)
  {
    var r := m + extra;
    forall i, j | 0 <= i < j < |r|
      ensures r[i].0 != r[j].0
    {
      if j < |m| {
        assert r[i] == m[i] && r[j] == m[j];
      } else if i < |m| {
        var kj := Keys(extra)[j - |m|];
        assert kj in Keys(extra);
        assert r[j].0 == kj;
        assert r[i].0 == Keys(m)[i];
      } else {
        assert r[i] == extra[i - |m|] && r[j] == extra[j - |m|];
      }
    }
    forall e | e in r
      ensures DistinctKeys(e.1)
    {
      assert e in m || e in extra;
    }
  }

  /** `map[endpoint][verb] = h` on an endpoint that exists. */
  function SetMethod(m: ActionMap, endpoint: string, verb: HttpMethod, h: Handler): (r: ActionMap)
    requires endpoint in Keys(m)
    ensures Keys(r) == Keys(m)
    ensures Lookup(r, endpoint) == Some(Assign(Lookup(m, endpoint).value, verb, h))
    ensures forall k :: k != endpoint ==> Lookup(r, k) == Lookup(m, k)
  {
    AssignLookup(m, endpoint, Assign(Lookup(m, endpoint).value, verb, h));
    Assign(m, endpoint, Assign(Lookup(m, endpoint).value, verb, h))
  }

  /** `SetMethod` keeps a well-formed map well formed. */
  lemma SetMethodKeepsWellFormed(m: ActionMap, endpoint: string, verb: HttpMethod, h: Handler)
    requires endpoint in Keys(m)
    requires WellFormed(m)
    ensures WellFormed(SetMethod(m, endpoint, verb, h))
  {
    var old_ms := Lookup(m, endpoint).value;
    var ms := Assign(old_ms, verb, h);
    AssignKeepsDistinct(old_ms, verb, h);
    AssignKeepsDistinct(m, endpoint, ms);
    var r := SetMethod(m, endpoint, verb, h);
    forall e | e in r
      ensures DistinctKeys(e.1)
    {
      var i :| 0 <= i < |r| && r[i] == e;
      if m[i].0 != endpoint {
        assert r[i] == m[i];
      } else {
        assert e.0 == Keys(r)[i] == Keys(m)[i] == endpoint;
        assert Lookup(r, endpoint) == Some(e.1) by {
          LookupFindsDistinct(r, i);
        }
      }
    }
  }

  /** In a map without duplicate keys, the entry at position `i` is the one
      `Lookup` finds. */
  lemma {:induction false} LookupFindsDistinct<V>(m: Assoc<string, V>, i: nat)
    requires DistinctKeys(m)
    requires i < |m|
    ensures Lookup(m, m[i].0) == Some(m[i].1)
  {
    if i > 0 {
      assert m[0].0 != m[i].0;
      DistinctKeysTail(m);
      LookupFindsDistinct(m[1..], i - 1);
    }
  }

  /** On a map without duplicate endpoints, giving the endpoint at position
      `i` a method it does not yet have appends that method to its list, in
      place, and leaves every other entry as it was. */
  lemma SetMethodAt(m: ActionMap, i: nat, verb: HttpMethod, h: Handler)
    requires DistinctKeys(m)
    requires i < |m| && verb !in Keys(m[i].1)
    ensures m[i].0 in Keys(m)
    ensures SetMethod(m, m[i].0, verb, h) == m[i := (m[i].0, m[i].1 + [(verb, h)])]
  {
    assert Keys(m)[i] == m[i].0;
    LookupFindsDistinct(m, i);
    AssignAt(m, m[i].0, m[i].1 + [(verb, h)], i);
  }

  /** The identity a controller derives from its model: `getTableName()` and
      the mount-path prefix. */
  datatype Resource = Resource(tableName: string, prefix: string) {
    /** `tableNameLower`: the segment used in paths and view folders. */
    function NameLower(): string {
      Lower(tableName)
    }
  }

  /** `getBase()`: the mount path of the controller. */
  function GetBase(r: Resource): (b: string)
    ensures |b| == |r.prefix| + 1 + |r.tableName|
    ensures b[..|r.prefix|] == r.prefix
    ensures b[|r.prefix|] == '/'
    ensures b[|r.prefix| + 1..] == r.NameLower()
  {
    r.prefix + "/" + r.NameLower()
  }

  /** Two controllers under one prefix share a mount path exactly when their
      table names agree after lower-casing. */
  lemma GetBaseIdentifiesName(r1: Resource, r2: Resource)
    requires r1.prefix == r2.prefix
    ensures GetBase(r1) == GetBase(r2) <==> Lower(r1.tableName) == Lower(r2.tableName)
  {
    if GetBase(r1) == GetBase(r2) {
      assert GetBase(r1)[|r1.prefix| + 1..] == GetBase(r2)[|r2.prefix| + 1..];
    }
  }

  /** A before-action: a caller-supplied middleware (identified by name), or
      the content-negotiation gate of one of the two controllers. */
  datatype Gate = Custom(name: string) | JsonNegotiation | HtmlNegotiation

  /** The caller's `beforeActions` array, shared by reference. */
  class GateArray {
    var items: seq<Gate>

    constructor(init: seq<Gate>)
      ensures items == init
    {
      items := init;
    }

    /** `Array.prototype.push`. */
    method Push(g: Gate)
      modifies this
      ensures items == old(items) + [g]
    {
      items := items + [g];
    }
  }

  /** A constructed controller object. It keeps the caller's array itself,
      not a copy. */
  datatype Instance = Instance(flavour: Flavour, resource: Resource, beforeActions: GateArray)

  /** The body of `Controller`'s constructor, run for every flavour by `super`. */
  method Construct(flavour: Flavour, tableName: string, beforeActions: GateArray, prefix: string) returns (c: Instance)
    ensures c.flavour == flavour
    ensures c.beforeActions == beforeActions
    ensures c.resource.tableName == tableName && c.resource.prefix == prefix
    ensures c.resource.NameLower() == Lower(tableName)
  {
    c := Instance(flavour, Resource(tableName, prefix), beforeActions);
  }

  const NOT_IMPLEMENTED := "Not Implemented."

  /** The five handlers of the base class; they ignore the request. */
  function NotImplemented(a: Action, req: Request, db: Answers): (o: Outcome)
    ensures !o.aborted
    ensures o.calls == []
    ensures o.replies == [Send(501, Text(NOT_IMPLEMENTED))]
  {
    Done([], [Send(501, Text(NOT_IMPLEMENTED))])
  }

  /** The `where` filter both `get` handlers build: `req.body[tableName]`
      when it is truthy, `{}` otherwise. */
  function ListFilter(r: Resource, req: Request): Attrs {
    match BodyEntry(req, r.tableName)
    case Some(attrs) => attrs
    case None => map[]
  }

  /** The 404 text of both `getById` handlers. */
  function NotFoundMessage(id: Option<string>): (s: string)
    ensures Mentions(s, IdText(id))
  {
    MentionsMiddle("Can not find model by id ", IdText(id), ".");
    "Can not find model by id " + IdText(id) + "."
  }

  /** The 500 text of `update` and `delete`; `purpose` is "update" or "delete". */
  function MissingMessage(r: Resource, id: Option<string>, purpose: string): (s: string)
    ensures Mentions(s, r.NameLower())
    ensures Mentions(s, IdText(id))
  {
    var s := "Can not find " + r.NameLower() + " of id " + IdText(id) + " to " + purpose + ".";
    MentionsMiddle("Can not find ", r.NameLower(), " of id " + IdText(id) + " to " + purpose + ".");
    assert s == "Can not find " + r.NameLower() + (" of id " + IdText(id) + " to " + purpose + ".");
    MentionsMiddle("Can not find " + r.NameLower() + " of id ", IdText(id), " to " + purpose + ".");
    assert s == ("Can not find " + r.NameLower() + " of id ") + IdText(id) + (" to " + purpose + ".");
    s
  }

  /** One step of a compiled router: `router.use(gate)` or
      `router.route(path)[method](handler)`. */
  datatype Registration = Use(gate: Gate) | Route(path: string, verb: HttpMethod, handler: Handler)

  /** Reference definition: the routes one endpoint contributes, in method order. */
  function EndpointRoutes(endpoint: string, ms: MethodMap): (rs: seq<Registration>)
    ensures |rs| == |ms|
    ensures forall i :: 0 <= i < |ms| ==> rs[i] == Route("/" + endpoint, ms[i].0, ms[i].1)
  {
    if |ms| == 0 then []
    else EndpointRoutes(endpoint, ms[..|ms| - 1]) + [Route("/" + endpoint, ms[|ms| - 1].0, ms[|ms| - 1].1)]
  }

  /** The number of (endpoint, method) pairs of a map. */
  function PairCount(m: ActionMap): nat {
    if |m| == 0 then 0 else PairCount(m[..|m| - 1]) + |m[|m| - 1].1|
  }

  /** Reference definition: the routes of a map, endpoint by endpoint. */
  function MapRoutes(m: ActionMap): (rs: seq<Registration>)
    ensures |rs| == PairCount(m)
    ensures forall r :: r in rs ==> r.Route?
  {
    if |m| == 0 then []
    else MapRoutes(m[..|m| - 1]) + EndpointRoutes(m[|m| - 1].0, m[|m| - 1].1)
  }

  /** The layers `router.use` adds for a gate list. */
  function Uses(gates: seq<Gate>): (us: seq<Registration>)
    ensures |us| == |gates|
    ensures forall i :: 0 <= i < |gates| ==> us[i] == Use(gates[i])
  {
    seq(|gates|, i requires 0 <= i < |gates| => Use(gates[i]))
  }

  /** `getRouter()` given the gate list it reads and the map `actionMap()`
      returns: every gate in list order, then one route per pair. */
  method CompileRouter(gates: seq<Gate>, m: ActionMap) returns (trace: seq<Registration>)
    ensures trace == Uses(gates) + MapRoutes(m)
  {
    trace := [];
    for i := 0 to |gates|
      invariant |trace| == i
      invariant forall k :: 0 <= k < i ==> trace[k] == Use(gates[k])
    {
      trace := trace + [Use(gates[i])];
    }
    ghost var uses := trace;
    for e := 0 to |m|
      invariant trace == uses + MapRoutes(m[..e])
    {
      var endpoint := m[e].0;
      var methods := m[e].1;
      for j := 0 to |methods|
        invariant trace == uses + MapRoutes(m[..e]) + EndpointRoutes(endpoint, methods[..j])
      {
        assert methods[..j + 1][..j] == methods[..j];
        trace := trace + [Route("/" + endpoint, methods[j].0, methods[j].1)];
      }
      assert methods[..|methods|] == methods;
      assert m[..e + 1][..e] == m[..e];
    }
    assert m[..|m|] == m;
    assert uses == Uses(gates);
  }

  /** A route is registered exactly for the pairs of the map, at
      `"/" + endpoint`: none dropped, none added. */
  lemma {:induction false} RouteMembership(m: ActionMap, path: string, verb: HttpMethod, h: Handler)
    ensures Route(path, verb, h) in MapRoutes(m)
            <==> exists e :: e in m && path == "/" + e.0 && (verb, h) in e.1
    decreases |m|
  {
    if |m| > 0 {
      var init := m[..|m| - 1];
      var last := m[|m| - 1];
      RouteMembership(init, path, verb, h);
      assert m == init + [last];
      if Route(path, verb, h) in EndpointRoutes(last.0, last.1) {
        var i :| 0 <= i < |last.1| && EndpointRoutes(last.0, last.1)[i] == Route(path, verb, h);
        assert last.1[i] == (verb, h);
      }
      if (exists e :: e in m && path == "/" + e.0 && (verb, h) in e.1) {
        var e :| e in m && path == "/" + e.0 && (verb, h) in e.1;
        if e == last {
          var i :| 0 <= i < |last.1| && last.1[i] == (verb, h);
          assert EndpointRoutes(last.0, last.1)[i] == Route(path, verb, h);
        } else {
          assert e in init;
        }
      }
    }
  }

  /** The position in the map a registered route comes from. */
  lemma RouteSource(m: ActionMap, r: Registration) returns (i: nat, k: nat)
    requires r in MapRoutes(m)
    ensures i < |m| && k < |m[i].1|
    ensures r == Route("/" + m[i].0, m[i].1[k].0, m[i].1[k].1)
  {
    RouteMembership(m, r.path, r.verb, r.handler);
    var e :| e in m && r.path == "/" + e.0 && (r.verb, r.handler) in e.1;
    i :| 0 <= i < |m| && m[i] == e;
    k :| 0 <= k < |e.1| && e.1[k] == (r.verb, r.handler);
  }

  /** Every pair of the map is registered. */
  lemma RouteOf(m: ActionMap, i: nat, k: nat)
    requires i < |m| && k < |m[i].1|
    ensures Route("/" + m[i].0, m[i].1[k].0, m[i].1[k].1) in MapRoutes(m)
  {
    assert m[i] in m;
    assert m[i].1[k] in m[i].1;
    RouteMembership(m, "/" + m[i].0, m[i].1[k].0, m[i].1[k].1);
  }

  /** Appending endpoints appends their routes. */
  lemma {:induction false} MapRoutesAppend(m: ActionMap, extra: ActionMap)
    ensures MapRoutes(m + extra) == MapRoutes(m) + MapRoutes(extra)
    decreases |extra|
  {
    if |extra| > 0 {
      var init := extra[..|extra| - 1];
      MapRoutesAppend(m, init);
      assert (m + extra)[..|m + extra| - 1] == m + init;
    } else {
      assert m + extra == m;
    }
  }

  /** `big` keeps every endpoint of `small` at its position and only adds
      methods after the ones already there. */
  ghost predicate GrowsInPlace(small: ActionMap, big: ActionMap) {
    && |small| == |big|
    && forall i :: 0 <= i < |small| ==> big[i].0 == small[i].0 && small[i].1 <= big[i].1
  }

  /** Growing a map in place keeps every route it registered. */
  lemma GrowsInPlaceKeepsRoutes(small: ActionMap, big: ActionMap)
    requires GrowsInPlace(small, big)
    ensures forall r :: r in MapRoutes(small) ==> r in MapRoutes(big)
  {
    forall r | r in MapRoutes(small)
      ensures r in MapRoutes(big)
    {
      var i, k := RouteSource(small, r);
      assert big[i].1[k] == small[i].1[k];
      RouteOf(big, i, k);
    }
  }

  /** Every registration is a route to a handler of runtime class `f`. */
  predicate BoundTo(f: Flavour, x: Registration) {
    x.Route? && x.handler.flavour == f
  }

  /** No two routes share a path and a method. */
  ghost predicate NoDuplicateRoutes(rs: seq<Registration>) {
    forall i, j :: 0 <= i < j < |rs| && rs[i].Route? && rs[j].Route? ==>
      (rs[i].path, rs[i].verb) != (rs[j].path, rs[j].verb)
  }

  /** A well-formed map registers each (path, method) at most once. */
  lemma {:induction false} WellFormedRoutesDistinct(m: ActionMap)
    requires WellFormed(m)
    ensures NoDuplicateRoutes(MapRoutes(m))
    decreases |m|
  {
    if |m| > 0 {
      var init := m[..|m| - 1];
      var last := m[|m| - 1];
      assert WellFormed(init) by {
        forall e | e in init
          ensures e in m
        {
        }
      }
      WellFormedRoutesDistinct(init);
      var left := MapRoutes(init);
      var right := EndpointRoutes(last.0, last.1);
      var rs := MapRoutes(m);
      assert rs == left + right;
      forall i, j | 0 <= i < j < |rs| && rs[i].Route? && rs[j].Route?
        ensures (rs[i].path, rs[i].verb) != (rs[j].path, rs[j].verb)
      {
        if j < |left| {
          assert rs[i] == left[i] && rs[j] == left[j];
        } else if i >= |left| {
          assert rs[i] == right[i - |left|] && rs[j] == right[j - |left|];
          assert last in m;
          assert last.1[i - |left|].0 != last.1[j - |left|].0;
        } else {
          var r := rs[i];
          assert r == left[i] && r in left;
          RouteMembership(init, r.path, r.verb, r.handler);
          var e :| e in init && r.path == "/" + e.0 && (r.verb, r.handler) in e.1;
          var p :| 0 <= p < |init| && init[p] == e;
          assert m[p] == e;
          assert e.0 != last.0;
          assert rs[j].path == "/" + last.0;
          assert r.path[1..] == e.0;
          assert rs[j].path[1..] == last.0;
        }
      }
    }
  }
}

=== FILE: dispatch.dfy ===
/** What a compiled router does with a request: the action map each runtime
    class produces, virtual dispatch of its handlers, the before-action chain,
    and `getRouter()` reading the controller's (possibly shared) gate array. */
module Dispatch {
  import opened Prelude
  import opened Http
  import opened Controller
  import ApiController
  import HtmlController

  /** `this.actionMap()`, resolved on the runtime class: `super.actionMap()`
      binds `this.get`, ... to the runtime class's handlers, and the
      subclass's override then extends that map. */
  function ActionMapOf(f: Flavour): ActionMap {
    DefaultActionMapShape(f);
    match f
    case Base => DefaultActionMap(f)
    case Api => ApiController.ExtendApi(DefaultActionMap(f))
    case Html => HtmlController.ExtendHtml(DefaultActionMap(f))
  }

  /** Running a bound handler such as `this.update` on a request. */
  function Handle(h: Handler, r: Resource, req: Request, db: Answers): Outcome {
    match h.flavour
    case Base => NotImplemented(h.action, req, db)
    case Api =>
      (match h.action
       case Get => ApiController.Get(r, req, db)
       case GetById => ApiController.GetById(r, req, db)
       case Create => ApiController.Create(r, req, db)
       case Update => ApiController.Update(r, req, db)
       case Delete => ApiController.Delete(r, req, db))
    case Html =>
      match h.action
      case Get => HtmlController.Get(r, req, db)
      case GetById => HtmlController.GetById(r, req, db)
      case Create => HtmlController.Create(r, req, db)
      case Update => HtmlController.Update(r, req, db)
      case Delete => HtmlController.Delete(r, req, db)
  }

  /** What one before-action does with a request. A negotiation gate passes
      exactly the requests that accept its media type and answers every other
      one with a 406 and nothing else. A caller-supplied gate is opaque code,
      so its decision is a parameter. */
  function Decide(g: Gate, req: Request, custom: (string, Request) -> Decision): (d: Decision)
    ensures g.JsonNegotiation? ==> (d.Next? <==> Accepts(req, "json") || Accepts(req, "application/json"))
    ensures g.HtmlNegotiation? ==> (d.Next? <==> Accepts(req, "html"))
    ensures !g.Custom? && d.Halt? ==> d.reply.Send? && d.reply.status == 406
    ensures g.JsonNegotiation? ==> d == ApiController.DefaultBeforeAction(req)
    ensures g.HtmlNegotiation? ==> d == HtmlController.DefaultBeforeAction(req)
    ensures g.Custom? ==> d == custom(g.name, req)
  {
    match g
    case Custom(name) => custom(name, req)
    case JsonNegotiation => ApiController.DefaultBeforeAction(req)
    case HtmlNegotiation => HtmlController.DefaultBeforeAction(req)
  }

  /** What a compiled router did with a request: a gate answered it, a route's
      handler ran, or nothing matched and Express moves past the router. */
  datatype Served = Stopped(gate: Gate, reply: Response) | Handled(handler: Handler, outcome: Outcome) | Unmatched

  /** Express's walk over a router's stack: each `use` layer runs its gate,
      which either calls `next()` or answers; each route layer whose path and
      method match runs its handler, which never calls `next()`. `pattern` is
      the route path the request URL matches. */
  function Serve(trace: seq<Registration>, pattern: string, verb: HttpMethod, r: Resource, req: Request, db: Answers,
                 custom: (string, Request) -> Decision): Served
  {
    if |trace| == 0 then Unmatched
    else match trace[0]
      case Use(g) =>
        (match Decide(g, req, custom)
         case Next => Serve(trace[1..], pattern, verb, r, req, db, custom)
         case Halt(reply) => Stopped(g, reply))
      case Route(p, v, h) =>
        if p == pattern && v == verb then Handled(h, Handle(h, r, req, db))
        else Serve(trace[1..], pattern, verb, r, req, db, custom)
  }

  /** The first route registered for a path and method. */
  function FirstRoute(rs: seq<Registration>, pattern: string, verb: HttpMethod): (h: Option<Handler>)
    ensures h.Some? ==> Route(pattern, verb, h.value) in rs
    ensures h.None? ==> forall g :: Route(pattern, verb, g) !in rs
  {
    if |rs| == 0 then None
    else if rs[0].Route? && rs[0].path == pattern && rs[0].verb == verb then Some(rs[0].handler)
    else FirstRoute(rs[1..], pattern, verb)
  }

  /** The route at the first position registered for a path and method is the
      one Express runs, whatever later positions register. */
  lemma {:induction false} FirstRouteIsFirst(rs: seq<Registration>, pattern: string, verb: HttpMethod, i: nat)
    requires i < |rs| && rs[i].Route? && rs[i].path == pattern && rs[i].verb == verb
    requires forall j :: 0 <= j < i ==> !(rs[j].Route? && rs[j].path == pattern && rs[j].verb == verb)
    ensures FirstRoute(rs, pattern, verb) == Some(rs[i].handler)
  {
    if i > 0 {
      assert !(rs[0].Route? && rs[0].path == pattern && rs[0].verb == verb);
      assert forall j :: 0 <= j < i - 1 ==> rs[1..][j] == rs[j + 1];
      FirstRouteIsFirst(rs[1..], pattern, verb, i - 1);
    }
  }

  /** Where the gate chain stops: `Pass` when every gate calls `next()`,
      otherwise the position of the first gate that answers. */
  datatype GateRun = Pass | StopAt(index: nat, reply: Response)

  /** The gate chain alone, in list order, stopping at the first answer. */
  function RunGates(gates: seq<Gate>, req: Request, custom: (string, Request) -> Decision): (run: GateRun)
    ensures run.Pass? <==> forall i :: 0 <= i < |gates| ==> Decide(gates[i], req, custom).Next?
    ensures run.StopAt? ==>
              && run.index < |gates|
              && Decide(gates[run.index], req, custom) == Halt(run.reply)
              && forall i :: 0 <= i < run.index ==> Decide(gates[i], req, custom).Next?
  {
    if |gates| == 0 then Pass
    else match Decide(gates[0], req, custom)
      case Halt(reply) => StopAt(0, reply)
      case Next =>
        var rest := RunGates(gates[1..], req, custom);
        assert forall i :: 1 <= i < |gates| ==> gates[i] == gates[1..][i - 1];
        match rest
        case Pass => Pass
        case StopAt(k, reply) => StopAt(k + 1, reply)
  }

  /** A router compiled from a gate list and a map serves a request by running
      the gate chain and then the first route registered for the request's
      path and method: nothing else can answer it. */
  lemma {:induction false} ServeCompiled(gates: seq<Gate>, rs: seq<Registration>, pattern: string, verb: HttpMethod,
                                         r: Resource, req: Request, db: Answers, custom: (string, Request) -> Decision)
    requires forall x :: x in rs ==> x.Route?
    ensures var s := Serve(Uses(gates) + rs, pattern, verb, r, req, db, custom);
            match RunGates(gates, req, custom)
            case StopAt(i, reply) => s == Stopped(gates[i], reply)
            case Pass =>
              match FirstRoute(rs, pattern, verb)
              case Some(h) => s == Handled(h, Handle(h, r, req, db))
              case None => s == Unmatched
    decreases |gates| + |rs|
  {
    if |gates| > 0 {
      assert (Uses(gates) + rs)[1..] == Uses(gates[1..]) + rs;
      ServeCompiled(gates[1..], rs, pattern, verb, r, req, db, custom);
    } else if |rs| > 0 {
      assert Uses(gates) + rs == rs;
      assert rs[1..] == Uses([]) + rs[1..];
      assert rs[0] in rs;
      ServeCompiled([], rs[1..], pattern, verb, r, req, db, custom);
      assert Serve(rs, pattern, verb, r, req, db, custom)
          == if rs[0].path == pattern && rs[0].verb == verb then Handled(rs[0].handler, Handle(rs[0].handler, r, req, db))
             else Serve(rs[1..], pattern, verb, r, req, db, custom);
    } else {
      assert Uses(gates) + rs == [];
    }
  }

  /** A gate that answers a request keeps every handler of the router from
      running: the chain stops at it or at an earlier gate. */
  lemma GateBlocks(gates: seq<Gate>, i: nat, req: Request, custom: (string, Request) -> Decision)
    requires i < |gates| && Decide(gates[i], req, custom).Halt?
    ensures RunGates(gates, req, custom).StopAt?
    ensures RunGates(gates, req, custom).index <= i
  {
  }

  /** `getRouter()`: reads the gate array the controller holds at the time of
      the call and the map its runtime class produces. */
  method GetRouter(c: Instance) returns (trace: seq<Registration>)
    ensures trace == Uses(c.beforeActions.items) + MapRoutes(ActionMapOf(c.flavour))
  {
    trace := CompileRouter(c.beforeActions.items, ActionMapOf(c.flavour));
  }

  /** The default map of a runtime class binds every route to that class's
      handlers. */
  lemma DefaultRoutesBound(f: Flavour)
    ensures forall x :: x in MapRoutes(DefaultActionMap(f)) ==> BoundTo(f, x)
  {
    forall x | x in MapRoutes(DefaultActionMap(f))
      ensures BoundTo(f, x)
    {
      var d := DefaultActionMap(f);
      var i, k := RouteSource(d, x);
      assert d[i] in d && d[i].1[k] in d[i].1;
    }
  }

  /** The JSON map registers the default routes, unchanged and in order,
      then the four alias routes. */
  lemma ApiRoutes(f: Flavour)
    requires f == Api
    ensures MapRoutes(ActionMapOf(f)) == MapRoutes(DefaultActionMap(f)) + ApiController.ALIAS_ROUTES
  {
    DefaultActionMapShape(f);
    ApiController.ExtendApiRoutes(DefaultActionMap(f));
  }

  /** The HTML map registers the default routes plus exactly the two form
      GETs. */
  lemma HtmlRoutes(f: Flavour)
    requires f == Html
    ensures forall p, v, h :: Route(p, v, h) in MapRoutes(ActionMapOf(f))
              <==> || Route(p, v, h) in MapRoutes(DefaultActionMap(f))
                   || Route(p, v, h) == Route("/" + CREATE, GET, HtmlController.CREATE_FORM)
                   || Route(p, v, h) == Route("/" + UPDATE_BY_ID, GET, HtmlController.UPDATE_FORM)
  {
    DefaultActionMapShape(f);
    HtmlController.ExtendHtmlRoutes(DefaultActionMap(f));
  }

  /** A property of every default route and of the alias routes holds for
      every route of the JSON map. */
  lemma ApiRoutesSatisfy(f: Flavour, P: Registration -> bool)
    requires f == Api
    requires forall x :: x in MapRoutes(DefaultActionMap(f)) ==> P(x)
    requires forall x :: x in ApiController.ALIAS_ROUTES ==> P(x)
    ensures forall x :: x in MapRoutes(ActionMapOf(f)) ==> P(x)
  {
    assert MapRoutes(ActionMapOf(f)) == MapRoutes(DefaultActionMap(f)) + ApiController.ALIAS_ROUTES by {
      ApiRoutes(f);
    }
  }

  /** A property of every default route and of both form GETs holds for
      every route of the HTML map. */
  lemma HtmlRoutesSatisfy(f: Flavour, P: Registration -> bool)
    requires f == Html
    requires forall x :: x in MapRoutes(DefaultActionMap(f)) ==> P(x)
    requires P(Route("/" + CREATE, GET, HtmlController.CREATE_FORM))
    requires P(Route("/" + UPDATE_BY_ID, GET, HtmlController.UPDATE_FORM))
    ensures forall x :: x in MapRoutes(ActionMapOf(f)) ==> P(x)
  {
    DefaultActionMapShape(f);
    HtmlController.ExtendHtmlKeeps(DefaultActionMap(f), P);
  }

  /** A property of every default route, and of the routes a subclass adds,
      holds for every route the subclass registers. */
  lemma RoutesSatisfy(f: Flavour, P: Registration -> bool)
    requires forall x :: x in MapRoutes(DefaultActionMap(f)) ==> P(x)
    requires f == Api ==> forall x :: x in ApiController.ALIAS_ROUTES ==> P(x)
    requires f == Html ==> P(Route("/" + CREATE, GET, HtmlController.CREATE_FORM))
    requires f == Html ==> P(Route("/" + UPDATE_BY_ID, GET, HtmlController.UPDATE_FORM))
    ensures forall x :: x in MapRoutes(ActionMapOf(f)) ==> P(x)
  {
    match f
    case Base =>
    case Api => ApiRoutesSatisfy(f, P);
    case Html => HtmlRoutesSatisfy(f, P);
  }

  /** Every route a controller registers runs a handler of its own runtime
      class. */
  lemma RoutesBound(f: Flavour)
    ensures forall x :: x in MapRoutes(ActionMapOf(f)) ==> BoundTo(f, x)
  {
    match f
    case Base => DefaultRoutesBound(f);
    case Api => ApiRoutesBound(f);
    case Html => HtmlRoutesBound(f);
  }

  /** Every route of the HTML map runs an HTML handler. */
  lemma HtmlRoutesBound(f: Flavour)
    requires f == Html
    ensures forall x :: x in MapRoutes(ActionMapOf(f)) ==> BoundTo(f, x)
  {
    DefaultRoutesBound(f);
    HtmlRoutesSatisfy(f, x => BoundTo(f, x));
  }

  /** Every route of the JSON map runs a JSON handler. */
  lemma ApiRoutesBound(f: Flavour)
    requires f == Api
    ensures forall x :: x in MapRoutes(ActionMapOf(f)) ==> BoundTo(f, x)
  {
    DefaultRoutesBound(f);
    ApiController.AliasRoutesBound();
    ApiRoutesSatisfy(f, x => BoundTo(f, x));
  }

  /** A subclass registers every route of the default map, with the same
      handler: overriding `actionMap()` only adds. */
  lemma KeepsDefaultRoutes(f: Flavour)
    ensures forall x :: x in MapRoutes(DefaultActionMap(f)) ==> x in MapRoutes(ActionMapOf(f))
  {
    if f == Api {
      ApiRoutes(f);
    } else if f == Html {
      HtmlRoutes(f);
      forall x | x in MapRoutes(DefaultActionMap(f))
        ensures x in MapRoutes(ActionMapOf(f))
      {
        assert x == Route(x.path, x.verb, x.handler);
      }
    }
  }

  /** Every runtime class produces a well-formed map. */
  lemma ActionMapWellFormed(f: Flavour)
    ensures WellFormed(ActionMapOf(f))
  {
    DefaultActionMapShape(f);
    if f == Api {
      ApiController.ExtendApiKeepsWellFormed(DefaultActionMap(f));
    } else if f == Html {
      HtmlController.ExtendHtmlKeepsWellFormed(DefaultActionMap(f));
    }
  }

  /** No compiled router registers a path and method twice, so the route that
      answers a request is never ambiguous. */
  lemma RoutesDistinct(f: Flavour)
    ensures NoDuplicateRoutes(MapRoutes(ActionMapOf(f)))
  {
    ActionMapWellFormed(f);
    WellFormedRoutesDistinct(ActionMapOf(f));
  }

  /** A gate that answers a request keeps every route of the router from
      running; when every gate before it lets the request through, its own
      answer is the one sent. */
  lemma GateRejects(gates: seq<Gate>, i: nat, rs: seq<Registration>, pattern: string, verb: HttpMethod,
                    r: Resource, req: Request, db: Answers, custom: (string, Request) -> Decision)
    requires forall x :: x in rs ==> x.Route?
    requires i < |gates| && Decide(gates[i], req, custom).Halt?
    ensures Serve(Uses(gates) + rs, pattern, verb, r, req, db, custom).Stopped?
    ensures (forall j :: 0 <= j < i ==> Decide(gates[j], req, custom).Next?) ==>
              Serve(Uses(gates) + rs, pattern, verb, r, req, db, custom)
                == Stopped(gates[i], Decide(gates[i], req, custom).reply)
  {
    ServeCompiled(gates, rs, pattern, verb, r, req, db, custom);
    var run := RunGates(gates, req, custom);
    assert run.StopAt? && run.index <= i;
  }

  /** Every route of the base class answers 501 without touching the
      persistence layer, whatever gates run first. */
  lemma BaseRouterNotImplemented(gates: seq<Gate>, pattern: string, verb: HttpMethod,
                                 r: Resource, req: Request, db: Answers, custom: (string, Request) -> Decision)
    ensures var s := Serve(Uses(gates) + MapRoutes(ActionMapOf(Base)), pattern, verb, r, req, db, custom);
            s.Handled? ==> s.outcome == Done([], [Send(501, Text(NOT_IMPLEMENTED))])
  {
    var rs := MapRoutes(ActionMapOf(Base));
    ServeCompiled(gates, rs, pattern, verb, r, req, db, custom);
    RoutesBound(Base);
    var h := FirstRoute(rs, pattern, verb);
    if h.Some? {
      assert Route(pattern, verb, h.value) in rs;
    }
  }

  /** A router whose only gate is `g` answers with `g`'s 406 when `g` turns
      the request away, and otherwise runs the first route registered for the
      request's path and method. */
  lemma ServeOneGate(g: Gate, rs: seq<Registration>, pattern: string, verb: HttpMethod,
                     r: Resource, req: Request, db: Answers, custom: (string, Request) -> Decision)
    requires forall x :: x in rs ==> x.Route?
    ensures var s := Serve(Uses([g]) + rs, pattern, verb, r, req, db, custom);
            && (Decide(g, req, custom).Halt? ==> s == Stopped(g, Decide(g, req, custom).reply))
            && (Decide(g, req, custom).Next? ==>
                  match FirstRoute(rs, pattern, verb)
                  case Some(h) => s == Handled(h, Handle(h, r, req, db))
                  case None => s == Unmatched)
  {
    ServeCompiled([g], rs, pattern, verb, r, req, db, custom);
    assert [g][1..] == [];
  }

  /** A JSON controller built with the defaults rejects, with 406, every
      request that accepts neither `json` nor `application/json`, and hands
      every other request to the first route registered for its path and
      method. */
  method ServeDefaultApi(tableName: string, pattern: string, verb: HttpMethod, req: Request, db: Answers,
                         custom: (string, Request) -> Decision) returns (c: Instance, s: Served)
    ensures c.flavour == Api && c.resource == Resource(tableName, ApiController.DEFAULT_PREFIX)
    ensures !Accepts(req, "json") && !Accepts(req, "application/json") ==>
              s == Stopped(JsonNegotiation, Send(406, Text(ApiController.NOT_ACCEPTABLE)))
    ensures Accepts(req, "json") || Accepts(req, "application/json") ==>
              match FirstRoute(MapRoutes(ActionMapOf(c.flavour)), pattern, verb)
              case Some(h) => s == Handled(h, Handle(h, c.resource, req, db))
              case None => s == Unmatched
  {
    c := ApiController.NewWithDefaults(tableName);
    var trace := GetRouter(c);
    s := Serve(trace, pattern, verb, c.resource, req, db, custom);
    ServeOneGate(JsonNegotiation, MapRoutes(ActionMapOf(c.flavour)), pattern, verb, c.resource, req, db, custom);
  }

  /** An HTML controller built with the defaults rejects, with 406, every
      request that does not accept `html`, and hands every other request to
      the first route registered for its path and method. */
  method ServeDefaultHtml(tableName: string, pattern: string, verb: HttpMethod, req: Request, db: Answers,
                          custom: (string, Request) -> Decision) returns (c: Instance, s: Served)
    ensures c.flavour == Html && c.resource == Resource(tableName, HtmlController.DEFAULT_PREFIX)
    ensures !Accepts(req, "html") ==>
              s == Stopped(HtmlNegotiation, Send(406, Text(HtmlController.NOT_ACCEPTABLE)))
    ensures Accepts(req, "html") ==>
              match FirstRoute(MapRoutes(ActionMapOf(c.flavour)), pattern, verb)
              case Some(h) => s == Handled(h, Handle(h, c.resource, req, db))
              case None => s == Unmatched
  {
    c := HtmlController.NewWithDefaults(tableName);
    var trace := GetRouter(c);
    s := Serve(trace, pattern, verb, c.resource, req, db, custom);
    ServeOneGate(HtmlNegotiation, MapRoutes(ActionMapOf(c.flavour)), pattern, verb, c.resource, req, db, custom);
  }

  /** The trace shapes `LateGate` compares, over any route list. */
  lemma PushedGateShape(g: Gate, routes: seq<Registration>, before: seq<Registration>, after: seq<Registration>)
    requires before == Uses([JsonNegotiation]) + routes
    requires after == Uses([JsonNegotiation, g]) + routes
    ensures |before| >= 1 && before[..1] == [Use(JsonNegotiation)]
    ensures |after| >= 2 && after[..2] == [Use(JsonNegotiation), Use(g)]
    ensures after[2..] == before[1..] == routes
  {
    assert before[1..] == routes;
    assert after[2..] == routes;
  }

  /** Compiles a router, pushes a gate onto the controller's array, and
      compiles again. */
  method RecompileAfterPush(c: Instance, g: Gate) returns (before: seq<Registration>, after: seq<Registration>)
    modifies c.beforeActions
    ensures before == Uses(old(c.beforeActions.items)) + MapRoutes(ActionMapOf(c.flavour))
    ensures after == Uses(old(c.beforeActions.items) + [g]) + MapRoutes(ActionMapOf(c.flavour))
  {
    before := GetRouter(c);
    c.beforeActions.Push(g);
    after := GetRouter(c);
  }

  /** `RecompileAfterPush` on a controller whose only gate is the JSON gate. */
  method PushOntoJsonGate(c: Instance, g: Gate) returns (before: seq<Registration>, after: seq<Registration>)
    requires c.beforeActions.items == [JsonNegotiation]
    modifies c.beforeActions
    ensures |before| >= 1 && before[..1] == [Use(JsonNegotiation)]
    ensures |after| >= 2 && after[..2] == [Use(JsonNegotiation), Use(g)]
    ensures after[2..] == before[1..]
    ensures forall x :: x in before[1..] ==> x.Route?
  {
    ghost var routes := MapRoutes(ActionMapOf(c.flavour));
    assert c.beforeActions.items + [g] == [JsonNegotiation, g];
    before, after := RecompileAfterPush(c, g);
    PushedGateShape(g, routes, before, after);
  }

  /** The caller's array is shared, not copied: a gate pushed onto it after
      construction runs in every router compiled afterwards, after the
      negotiation gate and before the same routes. */
  method LateGate(tableName: string, g: Gate) returns (before: seq<Registration>, after: seq<Registration>)
    ensures |before| >= 1 && before[..1] == [Use(JsonNegotiation)]
    ensures |after| >= 2 && after[..2] == [Use(JsonNegotiation), Use(g)]
    ensures after[2..] == before[1..]
    ensures forall x :: x in before[1..] ==> x.Route?
  {
    var c := ApiController.NewWithDefaults(tableName);
    before, after := PushOntoJsonGate(c, g);
  }

  /** Two controllers built on one array each push their gate onto it, so
      both routers run both negotiation gates, in construction order, before
      their own routes. */
  method SharedGateArray(apiTable: string, htmlTable: string) returns (api: Instance, html: Instance, apiTrace: seq<Registration>, htmlTrace: seq<Registration>)
    ensures api.flavour == Api && html.flavour == Html
    ensures api.beforeActions == html.beforeActions
    ensures apiTrace == Uses([JsonNegotiation, HtmlNegotiation]) + MapRoutes(ActionMapOf(api.flavour))
    ensures htmlTrace == Uses([JsonNegotiation, HtmlNegotiation]) + MapRoutes(ActionMapOf(html.flavour))
  {
    var gates := new GateArray([]);
    api := ApiController.New(apiTable, gates, ApiController.DEFAULT_PREFIX);
    html := HtmlController.New(htmlTable, gates, HtmlController.DEFAULT_PREFIX);
    assert gates.items == [JsonNegotiation, HtmlNegotiation];
    apiTrace := GetRouter(api);
    assert apiTrace == Uses(gates.items) + MapRoutes(ActionMapOf(api.flavour));
    htmlTrace := GetRouter(html);
  }

  /** With a shared array, the JSON router turns away a JSON-only client with
      the HTML gate's 406, and the HTML router turns away an HTML-only client
      with the JSON gate's 406. */
  lemma SharedGatesRejectEachOther(rs: seq<Registration>, pattern: string, verb: HttpMethod,
                                   r: Resource, req: Request, db: Answers, custom: (string, Request) -> Decision)
    requires forall x :: x in rs ==> x.Route?
    ensures Accepts(req, "json") && !Accepts(req, "html") ==>
              Serve(Uses([JsonNegotiation, HtmlNegotiation]) + rs, pattern, verb, r, req, db, custom)
                == Stopped(HtmlNegotiation, Send(406, Text(HtmlController.NOT_ACCEPTABLE)))
    ensures Accepts(req, "html") && !Accepts(req, "json") && !Accepts(req, "application/json") ==>
              Serve(Uses([JsonNegotiation, HtmlNegotiation]) + rs, pattern, verb, r, req, db, custom)
                == Stopped(JsonNegotiation, Send(406, Text(ApiController.NOT_ACCEPTABLE)))
  {
    ServeCompiled([JsonNegotiation, HtmlNegotiation], rs, pattern, verb, r, req, db, custom);
  }
}

=== FILE: findings.dfy ===
/** Defects of the handlers as written, each shown on the inputs that expose
    it, next to a corrected handler with the property the code evidently
    aims at: every request it accepts is answered exactly once. */
module Findings {
  import opened Prelude
  import opened Http
  import opened Controller
  import ApiController
  import HtmlController
  import Dispatch

  /** Exactly one response, and no exception after it. */
  predicate AnswersOnce(o: Outcome) {
    !o.aborted && |o.replies| == 1
  }

  // ---------------------------------------------------------------------------
  // JSON `update`: the 500 branch does not return.

  /** As written, a failed re-fetch is answered twice: a 500 with the message,
      then `send(null)`, which Express refuses once headers are sent. */
  lemma ApiUpdateMissAnswersTwice(r: Resource, req: Request, db: Answers)
    requires r.tableName in req.body && db.byPk.None?
    ensures var o := ApiController.Update(r, req, db);
            !o.aborted && |o.replies| == 2 && o.replies[0].status == 500 && o.replies[1] == Send(500, Row(None))
  {
  }

  /** `update` with a `return` after the 500. */
  function ApiUpdateFixed(r: Resource, req: Request, db: Answers): (o: Outcome)
    ensures r.tableName in req.body ==> AnswersOnce(o)
    ensures o.calls == ApiController.Update(r, req, db).calls
    ensures o.aborted == ApiController.Update(r, req, db).aborted
    ensures db.byPk.Some? ==> o == ApiController.Update(r, req, db)
    ensures r.tableName !in req.body ==> o == ApiController.Update(r, req, db)
    ensures r.tableName in req.body && db.byPk.None? ==>
              o.replies == [Send(500, Text(MissingMessage(r, req.pathId, "update")))]
  {
    var o := ApiController.Update(r, req, db);
    if r.tableName in req.body && db.byPk.None? then Done(o.calls, o.replies[..1]) else o
  }

  // ---------------------------------------------------------------------------
  // JSON `delete`: the 500 branch does not return.

  /** As written, a missing record is answered 500 and the handler then throws
      calling `destroy` on `null`, so the request ends in an unhandled
      rejection. */
  lemma ApiDeleteMissThrows(r: Resource, req: Request, db: Answers)
    requires db.byPk.None?
    ensures ApiController.Delete(r, req, db).aborted
    ensures ApiController.Delete(r, req, db).replies == [Send(500, Text(MissingMessage(r, req.pathId, "delete")))]
  {
  }

  /** The `delete` alias has no `:id` in its path, so `req.params.id` is
      undefined there and `delete` looks up `findByPk(undefined)`. When that
      finds nothing, as Sequelize answers an undefined key, the alias answers a
      500 naming the id `undefined` and then throws. */
  lemma DeleteAliasLooksUpUndefined(r: Resource, req: Request, db: Answers)
    requires req.pathId.None?
    ensures ApiController.Delete(r, req, db).calls[0] == FindByPk(None)
    ensures db.byPk.None? ==>
              && ApiController.Delete(r, req, db).aborted
              && |ApiController.Delete(r, req, db).replies| == 1
              && ApiController.Delete(r, req, db).replies[0].status == 500
              && Mentions(ApiController.Delete(r, req, db).replies[0].payload.text, "undefined")
  {
    assert IdText(req.pathId) == "undefined";
  }

  /** `delete` with a `return` after the 500. */
  function ApiDeleteFixed(r: Resource, req: Request, db: Answers): (o: Outcome)
    ensures AnswersOnce(o)
    ensures o.calls == ApiController.Delete(r, req, db).calls
    ensures o.replies == ApiController.Delete(r, req, db).replies
    ensures db.byPk.Some? ==> o == ApiController.Delete(r, req, db)
  {
    var o := ApiController.Delete(r, req, db);
    Done(o.calls, o.replies)
  }

  // ---------------------------------------------------------------------------
  // HTML `getById`: the 404 branch does not return.

  /** As written, a missing record is answered 404 and then the view is
      rendered as well. */
  lemma HtmlGetByIdMissAnswersTwice(r: Resource, req: Request, db: Answers)
    requires db.byPk.None?
    ensures |HtmlController.GetById(r, req, db).replies| == 2
  {
  }

  /** `getById` with an `else` around the render. */
  function HtmlGetByIdFixed(r: Resource, req: Request, db: Answers): (o: Outcome)
    ensures AnswersOnce(o)
    ensures o.calls == HtmlController.GetById(r, req, db).calls
    ensures o.replies[0] == HtmlController.GetById(r, req, db).replies[0]
    ensures TruthyId(req).Some? && db.byPk.Some? ==> o == HtmlController.GetById(r, req, db)
  {
    var o := HtmlController.GetById(r, req, db);
    Done(o.calls, o.replies[..1])
  }

  // ---------------------------------------------------------------------------
  // HTML `update`: the 500 branch does not return, and PUT is routed to the
  // handler but never answered.

  /** As written, a failed re-fetch after a POST is answered 500 and then the
      view is rendered as well. */
  lemma HtmlUpdateMissAnswersTwice(r: Resource, req: Request, db: Answers)
    requires req.verb == "POST" && r.tableName in req.body && db.byPk.None?
    ensures |HtmlController.Update(r, req, db).replies| == 2
  {
  }

  /** As written, both `update/:id(\\d+)` and `:id(\\d+)` route PUT to the
      HTML `update`, which compares the method with "GET", "UPDATE" and
      "POST" only, so a PUT is never answered and nothing is saved. */
  lemma HtmlUpdateIgnoresPut(f: Flavour, r: Resource, req: Request, db: Answers)
    requires f == Html && req.verb == Token(PUT)
    ensures Route("/" + UPDATE_BY_ID, PUT, Handler(f, Action.Update)) in MapRoutes(DefaultActionMap(f))
    ensures Route("/" + BY_ID, PUT, Handler(f, Action.Update)) in MapRoutes(DefaultActionMap(f))
    ensures HtmlController.Update(r, req, db) == Done([], [])
  {
    PutRoutesUpdate(f);
  }

  /** Both PUT routes of the default map run `update`. */
  lemma PutRoutesUpdate(f: Flavour)
    ensures Route("/" + UPDATE_BY_ID, PUT, Handler(f, Action.Update)) in MapRoutes(DefaultActionMap(f))
    ensures Route("/" + BY_ID, PUT, Handler(f, Action.Update)) in MapRoutes(DefaultActionMap(f))
  {
    var d := DefaultActionMap(f);
    RouteOf(d, 4, 0);
    RouteOf(d, 5, 1);
  }

  /** `update` treating PUT like POST, with a `return` after the 500. */
  function HtmlUpdateFixed(r: Resource, req: Request, db: Answers): (o: Outcome)
    ensures req.verb == "GET" ==> o == HtmlController.Update(r, req, db)
    ensures req.verb in {"GET", "PUT", "POST", "UPDATE"} && (req.verb != "GET" ==> r.tableName in req.body) ==>
              AnswersOnce(o)
    ensures req.verb in {"PUT", "POST", "UPDATE"} ==>
              o.calls == HtmlController.Update(r, req.(verb := "POST"), db).calls
    ensures req.verb in {"PUT", "POST", "UPDATE"} && db.byPk.Some? ==>
              o == HtmlController.Update(r, req.(verb := "POST"), db)
  {
    if req.verb == "GET" then HtmlController.Update(r, req, db)
    else if req.verb in {"PUT", "POST", "UPDATE"} then
      var o := HtmlController.Update(r, req.(verb := "POST"), db);
      if r.tableName in req.body && db.byPk.None? then Done(o.calls, o.replies[..1]) else o
    else Done([], [])
  }

  // ---------------------------------------------------------------------------
  // HTML `delete`: the 500 branch does not return.

  /** As written, a missing record is answered 500 and the handler then
      throws calling `destroy` on `null`. */
  lemma HtmlDeleteMissThrows(r: Resource, req: Request, db: Answers)
    requires db.byPk.None?
    ensures HtmlController.Delete(r, req, db).aborted
    ensures HtmlController.Delete(r, req, db).replies == [Send(500, Text(MissingMessage(r, req.pathId, "delete")))]
  {
  }

  /** `delete` with a `return` after the 500. */
  function HtmlDeleteFixed(r: Resource, req: Request, db: Answers): (o: Outcome)
    ensures AnswersOnce(o)
    ensures o.calls == HtmlController.Delete(r, req, db).calls
    ensures o.replies == HtmlController.Delete(r, req, db).replies
    ensures db.byPk.Some? ==> o == HtmlController.Delete(r, req, db)
  {
    var o := HtmlController.Delete(r, req, db);
    Done(o.calls, o.replies)
  }

  // ---------------------------------------------------------------------------
  // HTML `create`: the redirect ignores the mount prefix.

  /** As written, a controller mounted under a non-empty prefix redirects a
      successful create to a path outside its own mount point. */
  lemma RedirectMissesPrefix(r: Resource)
    requires r.prefix != ""
    ensures HtmlController.IndexLocation(r) != GetBase(r) + "/" + INDEX
  {
    assert |HtmlController.IndexLocation(r)| < |GetBase(r) + "/" + INDEX|;
  }

  /** The URL of the controller's own `index` route. */
  function IndexUrl(r: Resource): (u: string)
    ensures |u| == |GetBase(r)| + 1 + |INDEX|
    ensures u[..|GetBase(r)|] == GetBase(r)
    ensures u[|GetBase(r)|..] == "/" + INDEX
    ensures r.prefix == "" ==> u == HtmlController.IndexLocation(r)
  {
    GetBase(r) + "/" + INDEX
  }

  /** `create` redirecting to the controller's own index route. */
  function HtmlCreateFixed(r: Resource, req: Request, db: Answers): (o: Outcome)
    ensures o.calls == HtmlController.Create(r, req, db).calls
    ensures !o.aborted
    ensures r.prefix == "" ==> o == HtmlController.Create(r, req, db)
    ensures req.verb == "POST" && db.created.Some? ==> o.replies == [Redirect(IndexUrl(r))]
    ensures req.verb != "POST" || db.created.None? ==> o == HtmlController.Create(r, req, db)
  {
    var o := HtmlController.Create(r, req, db);
    if req.verb == "POST" && db.created.Some? then Done(o.calls, [Redirect(IndexUrl(r))]) else o
  }

  // ---------------------------------------------------------------------------
  // All corrections together.

  /** Running a bound handler with the corrections above in place. */
  function HandleFixed(h: Handler, r: Resource, req: Request, db: Answers): Outcome {
    match h.flavour
    case Base => NotImplemented(h.action, req, db)
    case Api =>
      (match h.action
       case Get => ApiController.Get(r, req, db)
       case GetById => ApiController.GetById(r, req, db)
       case Create => ApiController.Create(r, req, db)
       case Update => ApiUpdateFixed(r, req, db)
       case Delete => ApiDeleteFixed(r, req, db))
    case Html =>
      (match h.action
       case Get => HtmlController.Get(r, req, db)
       case GetById => HtmlGetByIdFixed(r, req, db)
       case Create => HtmlCreateFixed(r, req, db)
       case Update => HtmlUpdateFixed(r, req, db)
       case Delete => HtmlDeleteFixed(r, req, db))
  }

  /** The corrected handlers differ from the ones as written only where a
      defect above shows. */
  lemma HandleFixedAgrees(h: Handler, r: Resource, req: Request, db: Answers)
    requires h.flavour != Base && (h.action == Action.Update || h.action == Action.Delete) ==> db.byPk.Some?
    requires h.flavour == Html && h.action == Action.GetById ==> TruthyId(req).Some? && db.byPk.Some?
    requires h.flavour == Html && h.action == Action.Update ==> req.verb != "PUT"
    requires h.flavour == Html && h.action == Action.Create && req.verb == "POST" && db.created.Some? ==> r.prefix == ""
    ensures HandleFixed(h, r, req, db) == Dispatch.Handle(h, r, req, db)
  {
    if h.flavour == Html && h.action == Action.Update && req.verb in {"POST", "UPDATE"} {
      assert HtmlController.Update(r, req.(verb := "POST"), db) == HtmlController.Update(r, req, db);
    }
  }

  /** A route to an `update` handler is registered under GET, PUT or POST,
      and one to a `create` handler under GET or POST: the methods the
      corrected handlers answer. */
  predicate VerbFits(x: Registration) {
    && x.Route?
    && (x.handler.action == Action.Update ==> x.verb in {GET, PUT, POST})
    && (x.handler.action == Action.Create ==> x.verb in {GET, POST})
  }

  /** The default map binds `update` only under PUT and POST. */
  lemma DefaultUpdateMethods(f: Flavour)
    ensures forall e, p :: e in DefaultActionMap(f) && p in e.1 && p.1.action == Action.Update ==>
              p.0 in {PUT, POST}
  {
  }

  /** The default map binds `create` only under POST. */
  lemma DefaultCreateMethods(f: Flavour)
    ensures forall e, p :: e in DefaultActionMap(f) && p in e.1 && p.1.action == Action.Create ==>
              p.0 == POST
  {
  }

  lemma DefaultUpdateVerbs(f: Flavour)
    ensures forall x :: x in MapRoutes(DefaultActionMap(f)) ==> VerbFits(x)
  {
    var d := DefaultActionMap(f);
    forall x | x in MapRoutes(d)
      ensures VerbFits(x)
    {
      var i, k := RouteSource(d, x);
      assert d[i] in d && d[i].1[k] in d[i].1;
      DefaultUpdateMethods(f);
      DefaultCreateMethods(f);
    }
  }

  lemma ApiUpdateVerbs(f: Flavour)
    requires f == Api
    ensures forall x :: x in MapRoutes(Dispatch.ActionMapOf(f)) ==> VerbFits(x)
  {
    DefaultUpdateVerbs(f);
    assert forall x :: x in ApiController.ALIAS_ROUTES ==> VerbFits(x);
    Dispatch.ApiRoutesSatisfy(f, VerbFits);
  }

  /** Every route of every controller's map fits its handler's methods. */
  lemma UpdateRouteVerbs(f: Flavour)
    ensures forall x :: x in MapRoutes(Dispatch.ActionMapOf(f)) ==> VerbFits(x)
  {
    DefaultUpdateVerbs(f);
    match f
    case Base =>
    case Api => ApiUpdateVerbs(f);
    case Html => Dispatch.HtmlRoutesSatisfy(f, VerbFits);
  }

  /** With the corrections, a handler answers exactly once every request of
      a method it is routed under, provided it carries the body entry the
      handlers read and the persistence layer's `create` succeeds. */
  lemma FixedHandlerAnswersOnce(h: Handler, r: Resource, req: Request, db: Answers)
    requires h.action == Action.Update ==> req.verb in {"GET", "PUT", "POST"}
    requires h.action == Action.Create ==> req.verb in {"GET", "POST"}
    requires r.tableName in req.body && db.created.Some?
    ensures AnswersOnce(HandleFixed(h, r, req, db))
  {
  }

  /** With the corrections, every request a router hands to a handler is
      answered exactly once, provided it carries the body entry the handlers
      read and the persistence layer's `create` succeeds. */
  lemma FixedRoutesAnswerOnce(f: Flavour, x: Registration, r: Resource, req: Request, db: Answers)
    requires x in MapRoutes(Dispatch.ActionMapOf(f))
    requires req.verb == Token(x.verb)
    requires r.tableName in req.body && db.created.Some?
    ensures AnswersOnce(HandleFixed(x.handler, r, req, db))
  {
    assert VerbFits(x) by {
      UpdateRouteVerbs(f);
    }
    FixedHandlerAnswersOnce(x.handler, r, req, db);
  }
}

=== FILE: html_controller.dfy ===
/** The server-rendered controller: its constructor, its content-negotiation
    gate, its five view-rendering handlers and its extension of the action map. */
module HtmlController {
  import opened Prelude
  import opened AssocList
  import opened Http
  import opened Controller

  const DEFAULT_PREFIX := ""
  const NOT_ACCEPTABLE := "Not Acceptable."

  /** The view-name properties `index`, `view` and `form`. */
  const INDEX_VIEW := "index"
  const SHOW_VIEW := "view"
  const FORM_VIEW := "form"

  /** `new HTMLController(model, beforeActions, prefix)`: the base constructor
      keeps the caller's array, then the HTML gate is pushed onto it. */
  method New(tableName: string, beforeActions: GateArray, prefix: string) returns (c: Instance)
    modifies beforeActions
    ensures c.flavour == Html
    ensures c.beforeActions == beforeActions
    ensures c.resource == Resource(tableName, prefix)
    ensures beforeActions.items == old(beforeActions.items) + [HtmlNegotiation]
  {
    c := Construct(Html, tableName, beforeActions, prefix);
    beforeActions.Push(HtmlNegotiation);
  }

  /** `new HTMLController(model)`: a fresh gate array and the empty prefix. */
  method NewWithDefaults(tableName: string) returns (c: Instance)
    ensures c.flavour == Html
    ensures c.resource == Resource(tableName, DEFAULT_PREFIX)
    ensures fresh(c.beforeActions) && c.beforeActions.items == [HtmlNegotiation]
  {
    var gates := new GateArray([]);
    c := New(tableName, gates, DEFAULT_PREFIX);
  }

  /** `defaultBeforeAction`: lets a request through exactly when it accepts
      HTML, and otherwise answers 406. */
  function DefaultBeforeAction(req: Request): (d: Decision)
    ensures d.Next? <==> Accepts(req, "html")
    ensures d.Halt? ==> d.reply == Send(406, Text(NOT_ACCEPTABLE))
  {
    if Accepts(req, "html") then Next else Halt(Send(406, Text(NOT_ACCEPTABLE)))
  }

  /** The template `<tableNameLower>/<name>`. */
  function ViewPath(r: Resource, name: string): (p: string)
    ensures |p| == |r.NameLower()| + 1 + |name|
    ensures p[..|r.NameLower()|] == r.NameLower()
    ensures p[|r.NameLower()|..] == "/" + name
  {
    r.NameLower() + "/" + name
  }

  /** `get`: one `findAll` filtered by the body entry, rendered by the index view. */
  function Get(r: Resource, req: Request, db: Answers): (o: Outcome)
    ensures !o.aborted
    ensures r.tableName in req.body ==> o.calls == [FindAll(Some(req.body[r.tableName]))]
    ensures r.tableName !in req.body ==> o.calls == [FindAll(Some(map[]))]
    ensures o.replies == [Render(200, ViewPath(r, INDEX_VIEW), Listing(db.all))]
  {
    Done([FindAll(Some(ListFilter(r, req)))], [Render(200, ViewPath(r, INDEX_VIEW), Listing(db.all))])
  }

  /** `getById`: a found record is rendered once; a miss is answered 404 and
      then the view is still rendered, with a null model. */
  function GetById(r: Resource, req: Request, db: Answers): (o: Outcome)
    ensures !o.aborted
    ensures TruthyId(req).Some? ==> o.calls == [FindByPk(Some(Str(req.pathId.value)))]
    ensures TruthyId(req).None? ==> o.calls == []
    ensures |o.replies| == 1 <==> TruthyId(req).Some? && db.byPk.Some?
    ensures TruthyId(req).Some? && db.byPk.Some? ==>
              o.replies == [Render(200, ViewPath(r, SHOW_VIEW), Single(db.byPk, None))]
    ensures TruthyId(req).None? || db.byPk.None? ==>
              && |o.replies| == 2
              && o.replies[0].Send? && o.replies[0].status == 404
              && o.replies[0].payload.Text?
              && Mentions(o.replies[0].payload.text, IdText(req.pathId))
              && o.replies[1] == Render(404, ViewPath(r, SHOW_VIEW), Single(None, None))
  {
    var calls := if TruthyId(req).Some? then [FindByPk(PathKey(req))] else [];
    var model := if TruthyId(req).Some? then db.byPk else None;
    if model.Some? then
      Done(calls, [Render(200, ViewPath(r, SHOW_VIEW), Single(model, None))])
    else
      Done(calls, [Send(404, Text(NotFoundMessage(req.pathId))), Render(404, ViewPath(r, SHOW_VIEW), Single(None, None))])
  }

  /** Where a successful `create` redirects: `/<tableNameLower>/index`. */
  function IndexLocation(r: Resource): string {
    "/" + r.NameLower() + "/" + INDEX_VIEW
  }

  /** `create`: GET renders the form for a built, unsaved record; POST creates
      and redirects when the result is truthy and answers nothing otherwise;
      any other method answers nothing. */
  function Create(r: Resource, req: Request, db: Answers): (o: Outcome)
    ensures !o.aborted
    ensures req.verb == "GET" ==>
              && o.calls == [Build]
              && o.replies == [Render(200, ViewPath(r, FORM_VIEW), Single(Some(db.built), Some("POST")))]
    ensures req.verb == "POST" ==> o.calls == [CreateRow(BodyEntry(req, r.tableName))]
    ensures req.verb == "POST" && db.created.Some? ==> o.replies == [Redirect(IndexLocation(r))]
    ensures req.verb == "POST" && db.created.None? ==> o.replies == []
    ensures req.verb != "GET" && req.verb != "POST" ==> o.calls == [] && o.replies == []
  {
    if req.verb == "GET" then
      Done([Build], [Render(200, ViewPath(r, FORM_VIEW), Single(Some(db.built), Some("POST")))])
    else if req.verb == "POST" then
      Done([CreateRow(BodyEntry(req, r.tableName))], if db.created.Some? then [Redirect(IndexLocation(r))] else [])
    else
      Done([], [])
  }

  /** `update`: GET renders the form for the path id's record; POST (or the
      token "UPDATE") upserts the body entry as posted, re-fetches it by the
      body's id, and renders the view, answering 500 first when the re-fetch
      fails; any other method, PUT included, answers nothing. */
  function Update(r: Resource, req: Request, db: Answers): (o: Outcome)
    ensures req.verb == "GET" ==>
              && !o.aborted
              && o.calls == [FindByPk(PathKey(req))]
              && o.replies == [Render(200, ViewPath(r, FORM_VIEW), Single(db.byPk, None))]
    ensures (req.verb == "POST" || req.verb == "UPDATE") && r.tableName !in req.body ==>
              o.aborted && o.calls == [Upsert(None)] && o.replies == []
    ensures (req.verb == "POST" || req.verb == "UPDATE") && r.tableName in req.body ==>
              && !o.aborted
              && o.calls == [Upsert(Some(req.body[r.tableName])), FindByPk(IdOf(req.body[r.tableName]))]
    ensures (req.verb == "POST" || req.verb == "UPDATE") && r.tableName in req.body && db.byPk.Some? ==>
              o.replies == [Render(200, ViewPath(r, SHOW_VIEW), Single(db.byPk, Some("POST")))]
    ensures (req.verb == "POST" || req.verb == "UPDATE") && r.tableName in req.body && db.byPk.None? ==>
              o.replies == [Send(500, Text(MissingMessage(r, req.pathId, "update"))),
                            Render(500, ViewPath(r, SHOW_VIEW), Single(None, Some("POST")))]
    ensures req.verb !in {"GET", "POST", "UPDATE"} ==> o == Done([], [])
  {
    if req.verb == "GET" then
      Done([FindByPk(PathKey(req))], [Render(200, ViewPath(r, FORM_VIEW), Single(db.byPk, None))])
    else if req.verb == "UPDATE" || req.verb == "POST" then
      match BodyEntry(req, r.tableName)
      case None => Crash([Upsert(None)], [])
      case Some(attrs) =>
        var calls := [Upsert(Some(attrs)), FindByPk(IdOf(attrs))];
        if db.byPk.Some? then
          Done(calls, [Render(200, ViewPath(r, SHOW_VIEW), Single(db.byPk, Some("POST")))])
        else
          Done(calls, [Send(500, Text(MissingMessage(r, req.pathId, "update"))),
                       Render(500, ViewPath(r, SHOW_VIEW), Single(None, Some("POST")))])
    else
      Done([], [])
  }

  /** `delete`: looks the path id up; a hit is destroyed and the index view
      rendered with the unfiltered collection, a miss is answered 500 and then
      throws on `destroy`. */
  function Delete(r: Resource, req: Request, db: Answers): (o: Outcome)
    ensures |o.calls| >= 1 && o.calls[0] == FindByPk(PathKey(req))
    ensures o.aborted <==> db.byPk.None?
    ensures db.byPk.None? ==>
              && o.calls == [FindByPk(PathKey(req))]
              && o.replies == [Send(500, Text(MissingMessage(r, req.pathId, "delete")))]
    ensures db.byPk.Some? ==>
              && o.calls == [FindByPk(PathKey(req)), Destroy(db.byPk.value), FindAll(None)]
              && o.replies == [Render(200, ViewPath(r, INDEX_VIEW), Listing(db.all))]
  {
    match db.byPk
    case None =>
      Crash([FindByPk(PathKey(req))], [Send(500, Text(MissingMessage(r, req.pathId, "delete")))])
    case Some(model) =>
      Done([FindByPk(PathKey(req)), Destroy(model), FindAll(None)],
           [Render(200, ViewPath(r, INDEX_VIEW), Listing(db.all))])
  }

  const CREATE_FORM := Handler(Html, Action.Create)
  const UPDATE_FORM := Handler(Html, Action.Update)

  /** The override `HTMLController.actionMap()` applies to the map it gets
      from `super.actionMap()`: `map["create"].get = this.create`, then
      `map["update/:id(\\d+)"].get = this.update`. */
  function ExtendHtml(base: ActionMap): ActionMap
    requires CREATE in Keys(base) && UPDATE_BY_ID in Keys(base)
  {
    SetMethod(SetMethod(base, CREATE, GET, CREATE_FORM), UPDATE_BY_ID, GET, UPDATE_FORM)
  }

  /** On a map whose `create` and `update/:id(\\d+)` entries sit at positions
      2 and 4 without a GET method, the override appends a GET entry to those
      two method lists, after the methods already there, and changes nothing
      else. */
  lemma ExtendHtmlAppendsGet(base: ActionMap)
    requires DistinctKeys(base) && |base| > 4
    requires base[2].0 == CREATE && GET !in Keys(base[2].1)
    requires base[4].0 == UPDATE_BY_ID && GET !in Keys(base[4].1)
    ensures CREATE in Keys(base) && UPDATE_BY_ID in Keys(base)
    ensures ExtendHtml(base) == base[2 := (CREATE, base[2].1 + [(GET, CREATE_FORM)])]
                                    [4 := (UPDATE_BY_ID, base[4].1 + [(GET, UPDATE_FORM)])]
  {
    var b1 := base[2 := (CREATE, base[2].1 + [(GET, CREATE_FORM)])];
    SetMethodAt(base, 2, GET, CREATE_FORM);
    ReplaceValueKeepsKeys(base, 2, base[2].1 + [(GET, CREATE_FORM)]);
    assert b1[4] == base[4];
    SetMethodAt(b1, 4, GET, UPDATE_FORM);
  }

  /** On the default map of any flavour, `create` gains GET after POST and
      `update/:id(\\d+)` gains GET after PUT and POST. */
  lemma ExtendDefaultHtml(f: Flavour)
    ensures CREATE in Keys(DefaultActionMap(f)) && UPDATE_BY_ID in Keys(DefaultActionMap(f))
    ensures var d := DefaultActionMap(f);
            ExtendHtml(d) == d[2 := (CREATE, d[2].1 + [(GET, CREATE_FORM)])]
                              [4 := (UPDATE_BY_ID, d[4].1 + [(GET, UPDATE_FORM)])]
  {
    DefaultActionMapShape(f);
    ExtendHtmlAppendsGet(DefaultActionMap(f));
  }

  /** The map with the two form GETs appended at positions 2 and 4. */
  function WithFormGets(base: ActionMap): (big: ActionMap)
    requires |base| > 4
    ensures GrowsInPlace(base, big)
  {
    base[2 := (base[2].0, base[2].1 + [(GET, CREATE_FORM)])]
        [4 := (base[4].0, base[4].1 + [(GET, UPDATE_FORM)])]
  }

  /** A route of the grown map is a route of the original or one of the two
      form GETs. */
  lemma WithFormGetsAddsOnlyForms(base: ActionMap, p: string, v: HttpMethod, h: Handler)
    requires |base| > 4
    requires Route(p, v, h) in MapRoutes(WithFormGets(base))
    ensures || Route(p, v, h) in MapRoutes(base)
            || Route(p, v, h) == Route("/" + base[2].0, GET, CREATE_FORM)
            || Route(p, v, h) == Route("/" + base[4].0, GET, UPDATE_FORM)
  {
    var big := WithFormGets(base);
    var i, k := RouteSource(big, Route(p, v, h));
    if i == 2 || i == 4 {
      var added := if i == 2 then (GET, CREATE_FORM) else (GET, UPDATE_FORM);
      var grown := base[i].1 + [added];
      assert big[i] == (base[i].0, grown);
      if k < |base[i].1| {
        assert grown[k] == base[i].1[k];
        RouteOf(base, i, k);
      } else {
        assert k == |base[i].1|;
        assert grown[k] == added;
      }
    } else {
      assert big[i] == base[i];
      RouteOf(base, i, k);
    }
  }

  /** Both form GETs are routes of the grown map. */
  lemma WithFormGetsHasForms(base: ActionMap)
    requires |base| > 4
    ensures Route("/" + base[2].0, GET, CREATE_FORM) in MapRoutes(WithFormGets(base))
    ensures Route("/" + base[4].0, GET, UPDATE_FORM) in MapRoutes(WithFormGets(base))
  {
    var big := WithFormGets(base);
    RouteOf(big, 2, |base[2].1|);
    RouteOf(big, 4, |base[4].1|);
  }

  /** The routes of the extended map are those of the map it extends plus
      exactly the two GET routes for the forms. */
  lemma ExtendHtmlRoutes(base: ActionMap)
    requires DistinctKeys(base) && |base| > 4
    requires base[2].0 == CREATE && GET !in Keys(base[2].1)
    requires base[4].0 == UPDATE_BY_ID && GET !in Keys(base[4].1)
    ensures CREATE in Keys(base) && UPDATE_BY_ID in Keys(base)
    ensures forall p, v, h :: Route(p, v, h) in MapRoutes(ExtendHtml(base))
              <==> || Route(p, v, h) in MapRoutes(base)
                   || Route(p, v, h) == Route("/" + CREATE, GET, CREATE_FORM)
                   || Route(p, v, h) == Route("/" + UPDATE_BY_ID, GET, UPDATE_FORM)
  {
    ExtendHtmlAppendsGet(base);
    assert ExtendHtml(base) == WithFormGets(base);
    GrowsInPlaceKeepsRoutes(base, WithFormGets(base));
    WithFormGetsHasForms(base);
    forall p, v, h | Route(p, v, h) in MapRoutes(WithFormGets(base))
      ensures || Route(p, v, h) in MapRoutes(base)
              || Route(p, v, h) == Route("/" + CREATE, GET, CREATE_FORM)
              || Route(p, v, h) == Route("/" + UPDATE_BY_ID, GET, UPDATE_FORM)
    {
      WithFormGetsAddsOnlyForms(base, p, v, h);
    }
  }

  /** A property of every route of a map and of both form GETs holds for
      every route of the grown map. */
  lemma WithFormGetsKeeps(base: ActionMap, P: Registration -> bool)
    requires |base| > 4
    requires forall x :: x in MapRoutes(base) ==> P(x)
    requires P(Route("/" + base[2].0, GET, CREATE_FORM)) && P(Route("/" + base[4].0, GET, UPDATE_FORM))
    ensures forall x :: x in MapRoutes(WithFormGets(base)) ==> P(x)
  {
    forall x | x in MapRoutes(WithFormGets(base))
      ensures P(x)
    {
      WithFormGetsAddsOnlyForms(base, x.path, x.verb, x.handler);
    }
  }

  /** A property of every route of a map and of both form GETs holds for
      every route of the extended map. */
  lemma ExtendHtmlKeeps(base: ActionMap, P: Registration -> bool)
    requires DistinctKeys(base) && |base| > 4
    requires base[2].0 == CREATE && GET !in Keys(base[2].1)
    requires base[4].0 == UPDATE_BY_ID && GET !in Keys(base[4].1)
    requires forall x :: x in MapRoutes(base) ==> P(x)
    requires P(Route("/" + CREATE, GET, CREATE_FORM)) && P(Route("/" + UPDATE_BY_ID, GET, UPDATE_FORM))
    ensures CREATE in Keys(base) && UPDATE_BY_ID in Keys(base)
    ensures forall x :: x in MapRoutes(ExtendHtml(base)) ==> P(x)
  {
    ExtendHtmlAppendsGet(base);
    assert ExtendHtml(base) == WithFormGets(base);
    WithFormGetsKeeps(base, P);
  }

  /** The override keeps a well-formed map well formed. */
  lemma ExtendHtmlKeepsWellFormed(base: ActionMap)
    requires CREATE in Keys(base) && UPDATE_BY_ID in Keys(base)
    requires WellFormed(base)
    ensures WellFormed(ExtendHtml(base))
  {
    SetMethodKeepsWellFormed(base, CREATE, GET, CREATE_FORM);
    SetMethodKeepsWellFormed(SetMethod(base, CREATE, GET, CREATE_FORM), UPDATE_BY_ID, GET, UPDATE_FORM);
  }
}

=== FILE: http.dfy ===
/** The request/response vocabulary shared by the three controllers: what a
    handler reads from an Express request, the persistence calls it makes, and
    the responses it attempts, recorded as a trace. */
module Http {
  import opened Prelude

  /** The HTTP methods that appear as keys of an action map. */
  datatype HttpMethod = GET | POST | PUT | DELETE

  /** The value of `req.method` for a request routed under `m`. */
  function Token(m: HttpMethod): string {
    match m
    case GET => "GET"
    case POST => "POST"
    case PUT => "PUT"
    case DELETE => "DELETE"
  }

  /** A scalar attribute value of a posted record. */
  datatype Scalar = Str(s: string) | Int(i: int)

  /** A posted attribute object, such as `req.body[tableName]`. */
  type Attrs = map<string, Scalar>

  /** A persisted row returned by the model; its contents are never inspected. */
  datatype Record = Record(attrs: Attrs)

  /** What the handlers read from an Express request. `verb` is `req.method`,
      `pathId` is `req.params.id` (absent on routes without `:id`),
      `body` is `req.body` with object-valued entries, and `accepted` is the set
      of media-type names for which `req.accepts(...)` answers truthy. */
  datatype Request = Request(verb: string, pathId: Option<string>, body: map<string, Attrs>, accepted: set<string>)

  predicate Accepts(req: Request, mediaType: string) {
    mediaType in req.accepted
  }

  /** `req.body[key]`: a truthy object when present, `undefined` otherwise. */
  function BodyEntry(req: Request, key: string): (e: Option<Attrs>)
    ensures e.Some? <==> key in req.body
    ensures e.Some? ==> e.value == req.body[key]
  {
    if key in req.body then Some(req.body[key]) else None
  }

  /** `attrs.id`, or `undefined` when the object has no `id`. */
  function IdOf(attrs: Attrs): Option<Scalar> {
    if "id" in attrs then Some(attrs["id"]) else None
  }

  /** `req.params.id` where an `if` tests it: present and not the empty
      string. */
  function TruthyId(req: Request): (id: Option<string>)
    ensures id.Some? <==> req.pathId.Some? && req.pathId.value != ""
    ensures id.Some? ==> id == req.pathId
  {
    match req.pathId
    case Some(s) => if s != "" then Some(s) else None
    case None => None
  }

  /** The key `findByPk(req.params.id)` is called with. */
  function PathKey(req: Request): (k: Option<Scalar>)
    ensures k.Some? <==> req.pathId.Some?
    ensures k.Some? ==> k.value == Str(req.pathId.value)
  {
    match req.pathId
    case Some(id) => Some(Str(id))
    case None => None
  }

  /** The text a template literal `${req.params.id}` produces. */
  function IdText(id: Option<string>): string {
    match id
    case Some(s) => s
    case None => "undefined"
  }

  /** The results the persistence layer gives to the calls one handler makes.
      Every handler calls `findByPk` and `findAll` at most once, so a single
      answer for each suffices; `None` stands for a falsy result (`null`). */
  datatype Answers = Answers(byPk: Option<Record>, all: seq<Record>, created: Option<Record>, built: Record)

  /** A call a handler makes into the persistence layer, with its argument.
      `FindAll(None)` is `findAll()` with no options; `FindAll(Some(w))` is
      `findAll({where: w})`. */
  datatype Call =
    | FindAll(filter: Option<Attrs>)
    | FindByPk(key: Option<Scalar>)
    | CreateRow(attrs: Option<Attrs>)
    | Upsert(attrs: Option<Attrs>)
    | Destroy(row: Record)
    | Build

  /** The argument of `res.send`. `Row(None)` is `res.send(null)`. */
  datatype Payload = Text(text: string) | Rows(rows: seq<Record>) | Row(row: Option<Record>)

  /** The locals object passed to `res.render`. */
  datatype ViewContext =
    | Listing(models: seq<Record>)
    | Single(model: Option<Record>, methodHint: Option<string>)

  /** An attempted response, with `res.statusCode` at the time of the attempt. */
  datatype Response =
    | Send(status: nat, payload: Payload)
    | Render(status: nat, view: string, context: ViewContext)
    | Redirect(location: string)

  /** What one handler run did: the persistence calls it made and the
      responses it attempted, each in order. In every handler all calls come
      before the first response, so the two lists determine the run.
      `aborted` marks a run that threw (a property access on `null` or
      `undefined`) after them. */
  datatype Outcome = Outcome(calls: seq<Call>, replies: seq<Response>, aborted: bool)

  /** What a before-action does with a request: pass it on or answer it. */
  datatype Decision = Next | Halt(reply: Response)

  function Done(calls: seq<Call>, replies: seq<Response>): Outcome {
    Outcome(calls, replies, false)
  }

  function Crash(calls: seq<Call>, replies: seq<Response>): Outcome {
    Outcome(calls, replies, true)
  }
}

=== FILE: prelude.dfy ===
/** Shared vocabulary: optional values, ASCII lower-casing and substring search. */
module Prelude {

  /** A value that may be absent; stands for JavaScript's `undefined`/`null`. */
  datatype Option<T> = None | Some(value: T)

  predicate IsUpper(c: char) {
    'A' <= c <= 'Z'
  }

  /** ASCII case mapping of one character. */
  function LowerChar(c: char): (r: char)
    ensures !IsUpper(r)
  {
    if IsUpper(c) then (c as int + 32) as char else c
  }

  /** ASCII stand-in for `String.prototype.toLowerCase`. */
  function Lower(s: string): (r: string)
    ensures |r| == |s|
    ensures forall i :: 0 <= i < |s| ==> r[i] == LowerChar(s[i])
  {
    seq(|s|, i requires 0 <= i < |s| => LowerChar(s[i]))
  }

  /** Lower-casing leaves no upper-case letter and changes nothing else. */
  lemma LowerOnlyTouchesUpper(s: string)
    ensures forall i :: 0 <= i < |s| ==> !IsUpper(Lower(s)[i])
    ensures forall i :: 0 <= i < |s| && !IsUpper(s[i]) ==> Lower(s)[i] == s[i]
    ensures forall i :: 0 <= i < |s| && IsUpper(s[i]) ==> Lower(s)[i] as int == s[i] as int + 32
  {
  }

  lemma LowerIdempotent(s: string)
    ensures Lower(Lower(s)) == Lower(s)
  {
  }

  /** `t` occurs somewhere inside `s`. */
  predicate Mentions(s: string, t: string)
    decreases |s|
  {
    (|t| <= |s| && s[..|t|] == t) || (|s| > 0 && Mentions(s[1..], t))
  }

  lemma {:induction false} MentionsMiddle(a: string, t: string, b: string)
    ensures Mentions(a + t + b, t)
    decreases |a|
  {
    var s := a + t + b;
    if |a| == 0 {
      assert s[..|t|] == t;
    } else {
      assert s[1..] == a[1..] + t + b;
      MentionsMiddle(a[1..], t, b);
    }
  }
}
